=== FILE: README.md ===
# Tauri documentation server core, modelled in Dafny

The server answers questions about the Tauri documentation through four
tools: `list_sections`, `search`, `get_page` and `get_plugin`. This project
models the logic under those tools as immutable data and pure functions and
proves what that logic promises.

- **`CacheManager`** (`cache_manager.dfy`, `cache_properties.dfy`). This is
  the size-bounded store with a time-to-live and least-recently-used
  eviction. A `Cache<V>` holds four things: the entry map, the map's
  insertion order as a key sequence (JavaScript `Map` iteration order), the
  statistics record and the configuration. `Valid` is the representation
  invariant. The order lists every key exactly once. `stats.size` is the sum
  of the entry sizes. `stats.itemCount` is the number of entries. Every
  operation keeps it.
- **The memoiser of `cache.ts`** (`memo.dfy`). It covers `getCached` and
  `clearCache`.
- **`parseLlmsTxt`** (`llms_txt.dfy`, with the JavaScript string primitives
  in `text.dfy`). The link regular expression is modelled twice. `MatchLink`
  scans a line the way a backtracking matcher explores it. `IsMatch` states
  declaratively which match is the first one. The two are proved equal in
  both directions.
- **Keyword search** (`search.dfy`). It covers term splitting, scoring, the
  zero-score filter and the sort.
- **The tool adapters** (`tools.dfy`, `list_sections.dfy`,
  `page_tools.dfy`). They derive URLs and cache keys, and they read through
  a cache.

The model takes as parameters everything it cannot see. The clock is a
`now` argument. The adapters get two of them: `getNow` for the lookup and
`setNow` for the store that follows the fetch. `estimateSize` becomes
`sizeOf`. `localeCompare` becomes a total relation `titleLe`. Network
fetches become their outcomes, a `Result` whose `Failure` is the thrown
error.

The search counts the query terms found in `title + " " + path`. It has no
weighting, fuzzy matching, category filter, result limit or suggestions.

Two expiry boundaries differ, and the model keeps both as written. The
cache manager still serves an entry at `now == expiresAt`. The memoiser of
`cache.ts` treats `now == expires` as a miss.

## Model

| member | source | states |
|---|---|---|
| `CacheManager.New` | src/mastra/lib/cache-manager.ts:9-26 | A new cache is empty and satisfies the invariant. All counters, `size` and `itemCount` included, are zero. The sweep interval defaults to one minute. |
| `CacheManager.Get` | src/mastra/lib/cache-manager.ts:31-52 | Returns a value iff the key is present and `now <= expiresAt`. A hit returns the stored value, bumps `accessCount`, stamps `lastAccessed` and counts one hit; nothing else changes. A miss on an absent key changes only `misses`. A miss on an expired entry also deletes it: `size` and `itemCount` drop by its share, and the other keys keep their insertion order. |
| `CacheManager.Set` | src/mastra/lib/cache-manager.ts:57-88 | Afterwards the key holds exactly `Entry(value, now + ttl, sizeOf(value), 0, now)`. Either `size <= maxSize` or the new entry is the only one. Every other surviving entry is unchanged. Hits and misses are untouched, and the invariant holds. The result is the new entry stored into the cache after exactly `Rounds` rounds of eviction. Each of those rounds ran while the value did not fit and the cache was non-empty. After the last round the value fits or the cache is empty. The survivors keep their insertion order. The key keeps its old place if it survived; otherwise it goes to the end. When the old `size` plus the new value's size already fits, nothing is evicted: every old key survives and `evictions` does not move. |
| `CacheManager.EvictUntilFits` | src/mastra/lib/cache-manager.ts:62-67 | The eviction loop ends with the incoming size fitting or the cache empty. If the incoming size fits at the start, or the cache is empty, nothing changes. Survivors are untouched and keep their insertion order. One eviction is counted per removed entry. No removed entry was used later than any survivor. |
| `CacheManager.EvictN` | src/mastra/lib/cache-manager.ts:62-67 | `n` rounds of eviction keep the invariant. They leave the survivors untouched and remove `n` entries, or all of them when there are fewer. |
| `CacheManager.EvictUntilFitsRounds` | src/mastra/lib/cache-manager.ts:62-67 | The loop's result is exactly the cache after `Rounds` rounds of eviction, and that many entries are gone. Every round was taken while the incoming size did not fit and the cache was non-empty, so the loop never evicts more than it must. |
| `CacheManager.Rounds` | src/mastra/lib/cache-manager.ts:62-67 | The number of turns the eviction loop takes is at most the number of entries. |
| `CacheManager.Restrict` | src/mastra/lib/cache-manager.ts:93-101 | Keeps exactly the listed keys that are in the given set, and keeps a duplicate-free order duplicate-free. This is how a JavaScript `Map` orders its keys after deletions. |
| `CacheManager.LastEvictionNeeded` | src/mastra/lib/cache-manager.ts:62-67 | A round taken while the value does not fit and the cache is non-empty removes the least-recently-used entry. Adding that entry's size back would overflow the budget. Applied to the last round of the loop, this shows the last eviction was needed. |
| `CacheManager.SetEvictsLeastRecentlyUsed` | src/mastra/lib/cache-manager.ts:62-67 | Every entry `set` evicts has a `lastAccessed` no later than that of every old entry it keeps. |
| `CacheManager.Store` | src/mastra/lib/cache-manager.ts:69-87 | Inserting replaces any old entry for the key. `size` moves by the new size minus the old size. A new key is appended to the insertion order; an existing key keeps its position. |
| `CacheManager.Delete` | src/mastra/lib/cache-manager.ts:93-101 | Returns true iff the key was present. It removes only that key, keeps the insertion order of the others, and keeps the invariant. An absent key leaves the cache as it was. A present key lowers `size` by its entry's size and `itemCount` by one, and leaves the other counters alone. |
| `CacheManager.Clear` | src/mastra/lib/cache-manager.ts:106-111 | Empties the map and zeroes `size`, `itemCount` and `evictions`. `hits` and `misses` survive. |
| `CacheManager.GetStats` | src/mastra/lib/cache-manager.ts:116-118 | The reported `itemCount` is the number of entries and `size` is the sum of their sizes. `hits`, `misses` and `evictions` are the cache's counters. |
| `CacheManager.StatsMatchEntries` | src/mastra/lib/cache-manager.ts:70-99 | Under the invariant, `itemCount` equals the number of live entries and `size` equals the sum of their sizes. |
| `CacheManager.LruScan` | src/mastra/lib/cache-manager.ts:124-132 | The scan ends on the position of the entry with the smallest `lastAccessed`. On a tie it is the first such entry in insertion order. |
| `CacheManager.OldestIsOldest` | src/mastra/lib/cache-manager.ts:127-132 | The chosen entry was accessed no later than any entry in the map. |
| `CacheManager.EvictLru` | src/mastra/lib/cache-manager.ts:123-138 | Corrected eviction, used by `Set`. On a non-empty cache it removes exactly the least-recently-used entry and counts one eviction. On an empty cache it does nothing. |
| `CacheManager.CountEviction` | src/mastra/lib/cache-manager.ts:136 | Counting an eviction raises `evictions` by one, changes nothing else and keeps the invariant. |
| `CacheManager.EvictLruAsWritten` | src/mastra/lib/cache-manager.ts:134-137 | Eviction as written: when the least-recently-used key is the empty string, the cache comes back unchanged. |
| `CacheManager.ExpiredKeys` | src/mastra/lib/cache-manager.ts:144-151 | Lists exactly the keys whose entries have `now > expiresAt`. |
| `CacheManager.DeleteAll` | src/mastra/lib/cache-manager.ts:153-155 | Deleting a list of keys leaves exactly the other entries, unchanged and in their old insertion order. The hit, miss and eviction counters do not move. |
| `CacheManager.Cleanup` | src/mastra/lib/cache-manager.ts:143-156 | The sweep keeps exactly the entries with `now <= expiresAt`, unchanged and in their old insertion order. It moves no counter besides `size` and `itemCount`. |
| `CacheManager.Destroy` | src/mastra/lib/cache-manager.ts:191-194 | Leaves an empty cache with zero `size`, `itemCount` and `evictions`, as `clear()` does. `hits`, `misses` and the configuration survive. |
| `CacheManager.DestroyIdempotent` | src/mastra/lib/cache-manager.ts:191-194 | Calling `destroy` twice is the same as calling it once. |
| `CacheProperties.SetThenGetHit` | src/mastra/lib/cache-manager.ts:40-51 | A value stored at `t0` is returned by every `get` up to `t0 + ttl`. |
| `CacheProperties.SetThenGetExpired` | src/mastra/lib/cache-manager.ts:40-44 | After `t0 + ttl`, `get` misses and drops the entry, whether or not the sweep ran. |
| `CacheProperties.DeleteThenGetMisses` | src/mastra/lib/cache-manager.ts:93-101 | After `delete(k)`, `get(k)` misses. |
| `CacheProperties.ClearThenGetMisses` | src/mastra/lib/cache-manager.ts:106-111 | After `clear()`, every `get` misses. |
| `CacheProperties.CleanupInvisibleToGet` | src/mastra/lib/cache-manager.ts:143-156 | The sweep never changes what a `get` at the same instant returns. |
| `CacheProperties.Run` | src/mastra/lib/cache-manager.ts:31-156 | Any sequence of get, set, delete, clear and sweep calls keeps the statistics equal to the sums over the live entries. |
| `CacheProperties.EvictLruAgreesOffEmptyKey` | src/mastra/lib/cache-manager.ts:123-138 | The as-written and the corrected eviction agree whenever the chosen key is not empty. |
| `CacheProperties.EmptyKeyStallsEviction` | src/mastra/lib/cache-manager.ts:62-67 | On a cache over budget whose only key is `""`, the loop guard holds and the as-written eviction changes nothing, so `set` never returns. The corrected eviction empties that cache. |
| `Memo.GetCached` | src/mastra/lib/cache.ts:8-20 | The fetcher runs iff no entry exists or `expires <= now`. A hit returns the cached data and leaves the store alone. A successful fetch is stored with `expires = now + ttl`. A failed fetch stores nothing. |
| `Memo.ClearCache` | src/mastra/lib/cache.ts:22-28 | A non-empty key removes only that key. No key, or the empty key, empties the store. |
| `Memo.RefetchOnlyAfterTtl` | src/mastra/lib/cache.ts:12-19 | After a successful miss at `now`, every call before `now + ttl` is served from the store. From `now + ttl` on, the fetcher runs again. |
| `Memo.FailureStoresNothing` | src/mastra/lib/cache.ts:16-19 | After a failed fetch on a key with no fresh entry, the store is as before, and the next call, at the same instant or later, fetches again. |
| `Memo.ClearForcesFetch` | src/mastra/lib/cache.ts:22-28 | After clearing a key, or everything, the next lookup of that key fetches. |
| `Text.Trim` | src/mastra/lib/llms-txt.ts:34 | `trim` returns the middle of the string. What it strips on both sides is all `\s`, and the result neither starts nor ends with `\s`. |
| `Text.TrimIdempotent` | src/mastra/lib/llms-txt.ts:34 | Trimming twice is trimming once. |
| `Text.StripTrailingSlash` | src/mastra/lib/llms-txt.ts:32 | `replace(/\/$/, "")` removes one final slash if there is one and returns any other string unchanged. |
| `Text.StripLeadingSlash` | src/mastra/tools/get-plugin.ts:22 | `replace(/^\//, "")` removes one leading slash if there is one and returns any other string unchanged. |
| `Text.Lower` | src/mastra/tools/search.ts:23 | `toLowerCase` keeps the length and maps every character on its own. |
| `Text.ReplaceFirst` | src/mastra/lib/llms-txt.ts:32 | With a string pattern, a string without the pattern is returned unchanged. Otherwise the leftmost occurrence, wherever it lies, is replaced, and the text before and after it is kept. The replacement is spliced in literally; JavaScript's `$` replacement patterns are not modelled. |
| `Text.Words` | src/mastra/tools/search.ts:23 | Splitting on `\s+` and dropping empty pieces gives non-empty words without white space. There are none iff the input is all white space. `Text.WordsSplit` shows the words are the maximal runs. |
| `Text.WordsConcat` | src/mastra/tools/search.ts:23 | The words glued back together are the input with its white space deleted. |
| `Text.Gaps` | src/mastra/tools/search.ts:23 | The white-space pieces between the words: one more than there are words, all white space, every inner one non-empty. |
| `Text.WordsSplit` | src/mastra/tools/search.ts:23 | The input is the gaps and the words interleaved. With the inner gaps non-empty, the words are exactly the maximal runs without white space. |
| `Text.NoSpaceNeedleSplit` | src/mastra/tools/search.ts:29-31 | A needle without white space occurs in `a + " " + b` iff it occurs in `a` or in `b`. |
| `LlmsTxt.Lines` | src/mastra/lib/llms-txt.ts:25 | `split(/\r?\n/)` gives one more piece than there are line feeds, and no piece holds a line feed. |
| `LlmsTxt.LinesRoundTrip` | src/mastra/lib/llms-txt.ts:25 | Joining the pieces with line feeds gives back the input with CRLF pairs normalised to LF. |
| `LlmsTxt.ScanUrlIff` | src/mastra/lib/llms-txt.ts:29 | The scanner for `https?:\/\/[^)]+\)` accepts exactly the URL captures the pattern describes. |
| `LlmsTxt.ScanUrl` | src/mastra/lib/llms-txt.ts:29 | A URL the scanner captures starts with `http://` or `https://`, has at least one more character, and holds no `)`. |
| `LlmsTxt.FindTitle` | src/mastra/lib/llms-txt.ts:29 | The lazy `(.+?)` picks the shortest title without a line terminator after which `](`, a URL and `)` follow. When it finds none, no title length admits a URL. |
| `LlmsTxt.MatchLink` | src/mastra/lib/llms-txt.ts:29 | A line the pattern matches starts with `-`, then white space, then `[`, and the captures are what the lazy title search finds after the `[`. |
| `LlmsTxt.MatchLinkIff` | src/mastra/lib/llms-txt.ts:29 | The scanner returns `(t, u)` iff `t` and `u` are the captures of the first match of `^-\s*\[(.+?)\]\((https?:\/\/[^)]+)\)` on the line. |
| `LlmsTxt.MatchLinkComplete` | src/mastra/lib/llms-txt.ts:29 | Every first match of the pattern is found by the scanner. |
| `LlmsTxt.MatchLinkSound` | src/mastra/lib/llms-txt.ts:29 | Everything the scanner finds is the first match of the pattern. |
| `LlmsTxt.PathOf` | src/mastra/lib/llms-txt.ts:32 | Without the origin in the URL, the path is the URL less one trailing slash. Otherwise the leftmost occurrence of the origin is cut out first. |
| `LlmsTxt.PathOfOriginUrl` | src/mastra/lib/llms-txt.ts:32 | For `https://v2.tauri.app/` followed by `r`, the path is `r` less one trailing slash. |
| `LlmsTxt.PathOfForeignUrl` | src/mastra/lib/llms-txt.ts:32 | A URL that does not contain the origin keeps its whole text, apart from one trailing slash. |
| `LlmsTxt.TrimmedUrlKeepsScheme` | src/mastra/lib/llms-txt.ts:36 | The trimmed URL still starts with `http://` or `https://` and holds no `)`. |
| `LlmsTxt.TrimmedTitleClean` | src/mastra/lib/llms-txt.ts:34 | The trimmed title still holds no line terminator. |
| `LlmsTxt.ParseLine` | src/mastra/lib/llms-txt.ts:29-37 | A section parsed from a line has a URL with a scheme and no `)`, and a title without surrounding white space or line terminators. `LlmsTxt.ParseLineIff` ties it to the first match's captures. |
| `LlmsTxt.ParseLineIff` | src/mastra/lib/llms-txt.ts:29-37 | A line parses to a section iff the pattern matches it and the section is the trimmed title, the path and the trimmed URL of the first match's captures. |
| `LlmsTxt.ParseLines` | src/mastra/lib/llms-txt.ts:28-38 | Yields at most one section per line, and every section is well shaped. |
| `LlmsTxt.ParseLlmsTxt` | src/mastra/lib/llms-txt.ts:24-42 | The number of sections is at most the number of lines, and every section is well shaped. `LlmsTxt.ParseLlmsTxtMembers` says which sections occur. |
| `LlmsTxt.ParseLlmsTxtMembers` | src/mastra/lib/llms-txt.ts:24-38 | A section is in the output iff some line of the input yields it from its first match. |
| `LlmsTxt.ParseLinesAppend` | src/mastra/lib/llms-txt.ts:28-38 | Parsing two blocks of lines gives the first block's sections followed by the second's, so line order is kept. |
| `LlmsTxt.ParseOneLine` | src/mastra/lib/llms-txt.ts:28-38 | A single line contributes its section if it matches and nothing otherwise. |
| `LlmsTxt.ParseLinesMembers` | src/mastra/lib/llms-txt.ts:28-38 | A section is in the output iff some line parses to it. |
| `Search.Terms` | src/mastra/tools/search.ts:23 | The terms are non-empty and free of white space. There are none iff the lowercased query is all white space. `Search.TermsSplitQuery` shows they are the maximal runs of the lowercased query. |
| `Search.TermsSplitQuery` | src/mastra/tools/search.ts:23 | The lowercased query is its terms interleaved with non-empty white-space gaps, so the terms are its maximal non-space runs. |
| `Search.Score` | src/mastra/tools/search.ts:30-33 | The score lies between zero and the number of terms. The score is positive iff some term occurs in the haystack, and it equals the number of terms iff every term does. |
| `Search.ScoreAppend` | src/mastra/tools/search.ts:30-33 | The score adds up over the terms, one point per term found, duplicates included. |
| `Search.TermInHaystack` | src/mastra/tools/search.ts:29-31 | A term occurs in the lowercased `title + " " + path` iff it occurs in the lowercased title or in the lowercased path. |
| `Search.HitOf` | src/mastra/tools/search.ts:29-36 | A page yields a hit iff some term occurs in its text. The hit copies title and path, and its score is `Score` of the terms on the page's haystack, between 1 and the number of terms. |
| `Search.AllPages` | src/mastra/tools/search.ts:27-28 | A page is visited iff it is in some section's pages. |
| `Search.Collect` | src/mastra/tools/search.ts:27-38 | At most one hit per page, each with a positive score no larger than the number of terms. |
| `Search.CollectMembers` | src/mastra/tools/search.ts:27-38 | A hit is collected iff some page produces it. |
| `Search.Insert` | src/mastra/tools/search.ts:40 | Inserting into a sorted list keeps it sorted and adds exactly the one hit. |
| `Search.BeforeMatchesComparator` | src/mastra/tools/search.ts:40 | The order the sort establishes is the comparator's: `a` may precede `b` iff `b.score - a.score` is zero or less, falling back to `localeCompare` of the titles when the scores tie. |
| `Search.Sort` | src/mastra/tools/search.ts:40 | The sort output is ordered by score descending, then by title, and is a permutation of its input. |
| `Search.SortedScoresDescend` | src/mastra/tools/search.ts:40 | In a sorted result, an earlier entry never has a lower score than a later one. |
| `Search.SearchIndex` | src/mastra/tools/search.ts:20-42 | The results are a sorted permutation of the positive-score hits, and every score lies between 1 and the number of terms. |
| `Search.SearchMembers` | src/mastra/tools/search.ts:27-40 | A hit is in the results iff some page of some section produces it. |
| `Search.BlankQueryFindsNothing` | src/mastra/tools/search.ts:23-36 | A query of white space only returns no results. |
| `Tools.CacheThrough` | src/mastra/tools/get-page.ts:28-45 | The tool works through `get` and then `set` on the shared cache. The fetch is skipped iff the key holds an unexpired entry. Then the cached value is returned, the hit is counted, and that entry's `accessCount` and `lastAccessed` are bumped; nothing else changes. A fetch counts one miss. A successful fetch is returned and stored under the key with `expiresAt = setNow + ttl`. A failed fetch stores nothing and leaves the key absent. Every other entry left is unchanged. When the fetched value fits beside the others, none of them is evicted. |
| `Tools.SecondCallHits` | src/mastra/tools/get-page.ts:29-43 | After a successful fetch, a call up to `ttl` later is a hit with the same value. |
| `Tools.FailureIsNotCached` | src/mastra/tools/get-page.ts:35-43 | After a failed fetch, the next call fetches again. |
| `ListSectionsTool.BuildListing` | src/mastra/tools/list-sections.ts:35-47 | One listed entry per parsed section, in order, with title and path kept. Each URL is the origin followed by the path, and `totalSections` is the count. |
| `ListSectionsTool.NewIndexCache` | src/mastra/lib/cache-manager.ts:202-205 | The index cache has a one-hour lifetime and a 10 MiB budget. |
| `ListSectionsTool.ListSections` | src/mastra/tools/list-sections.ts:26-53 | A hit on `docs-index` returns the cached listing without fetching. A fetched index is parsed, listed, returned and stored under `docs-index`. A failed fetch stores nothing. |
| `ListSectionsTool.ListedUrlIsLinkUrl` | src/mastra/tools/list-sections.ts:44 | For a link under the origin with no trailing slash or white space, the rebuilt URL equals the link's trimmed URL. |
| `ListSectionsTool.ListedUrlDropsTrailingSlash` | src/mastra/tools/list-sections.ts:44 | For a link ending in a slash, the rebuilt URL is the link's URL without that slash. |
| `ListSectionsTool.ListingServedFromCache` | src/mastra/tools/list-sections.ts:28-31 | Within the hour after a listing was stored, a second call returns the same listing without fetching. |
| `GetPageTool.NewPageCache` | src/mastra/lib/cache-manager.ts:208-211 | The page cache has a thirty-minute lifetime and a 50 MiB budget. |
| `GetPageTool.ResolvePageUrl` | src/mastra/tools/get-page.ts:23-25 | A path starting with `http` is used verbatim. Any other path goes under the origin with one leading slash dropped. |
| `GetPageTool.ResolveIdempotent` | src/mastra/tools/get-page.ts:23-25 | Resolving an already resolved URL changes nothing. |
| `GetPageTool.LeadingSlashIgnored` | src/mastra/tools/get-page.ts:25 | A relative path names the same URL with or without one leading slash. |
| `GetPageTool.PageKey` | src/mastra/tools/get-page.ts:28 | The page key is `page:` followed by the whole URL. |
| `GetPageTool.PageKeyInjective` | src/mastra/tools/get-page.ts:28 | Two URLs share a `page:` key iff they are equal. |
| `GetPageTool.GetPage` | src/mastra/tools/get-page.ts:21-46 | Reads through the page cache under `page:` plus the resolved URL. A hit returns the cached content. A miss fetches that URL, returns `{title, content: html, url}` and stores it under the key. |
| `GetPageTool.PluginUrl` | src/mastra/tools/get-plugin.ts:22-23 | The plugin URL is the origin, `plugin/` and the name less one leading slash. |
| `GetPageTool.PluginKey` | src/mastra/tools/get-plugin.ts:26 | The plugin key is `plugin:` followed by the whole URL. |
| `GetPageTool.PluginUrlIsPageUrl` | src/mastra/tools/get-plugin.ts:22-23 | `get_plugin(x)` fetches the same URL that `get_page` resolves `plugin/` plus `x` less one leading slash to. |
| `GetPageTool.PageOfPluginName` | src/mastra/tools/get-page.ts:23-25 | `get_page("plugin/" + x)` reaches the plugin's URL iff `x` has no leading slash. With one, `get_page` asks for `plugin//…`. |
| `GetPageTool.PluginAndPageKeysDisjoint` | src/mastra/tools/get-plugin.ts:26 | A `plugin:` key never equals a `page:` key, so one page reached through both tools is cached twice. |
| `GetPageTool.GetPlugin` | src/mastra/tools/get-plugin.ts:21-44 | Reads through the page cache under `plugin:` plus the plugin URL. A hit returns the cached content. A miss fetches that URL, returns the content and stores it under the key. |
| `GetPageTool.PluginLeadingSlashIgnored` | src/mastra/tools/get-plugin.ts:22 | A plugin name with or without one leading slash gives the same URL. |

## Left out

- The sweep timer is not modelled: `startCleanup`, `stopCleanup`, `setInterval` and `unref`, and the timer part of `destroy`. `Cleanup` is an ordinary operation at a given `now`, and there is no concurrency.
- `estimateSize` (JSON serialisation plus byte length) is replaced by a caller-supplied `sizeOf`.
- `Date.now()` is replaced by explicit instants. The two clock reads inside one `get`, and the two inside one `set`, are taken as one instant.
- `fetchLlmsTxt`, `fetchPageHtml` and all of `src/mastra/lib/html.ts` are network I/O and third-party HTML processing. Their outcomes are parameters.
- `localeCompare` is replaced by a relation required only to be total. Its locale-specific collation is not modelled.
- `toLowerCase` is modelled for the ASCII letters only. `\s`, `trim` and line terminators follow the JavaScript character sets.
- The module-level `indexCache` and `pageCache` instances are represented only by their configurations. A JavaScript cache can hold values of mixed types; each modelled cache holds one value type.
- The zod schemas and `createTool` wiring are not modelled. The schema minimums become preconditions: a query of at least two characters, a plugin name of at least one. The model counts characters, where zod counts UTF-16 code units.
- `search.ts` imports `fetchDocsIndex` and `parseDocsIndex` and walks `section.pages`. `llms-txt.ts` exports none of these. The search is therefore modelled over an abstract list of sections, each holding pages.
- `Search.Sort`, `Search.SearchIndex`: the stability of `Array.prototype.sort` is not stated. The contracts give sortedness and permutation only, so entries that tie on score and title may come out in either order.
- `LlmsTxt.TrimmedUrlKeepsScheme`: this states only the scheme and the absence of `)`. The captured URL has at least one character after the scheme. That character may be white space, which `trim` removes, so the trimmed URL can be the bare scheme.
- Values cached by the tools are objects, so the `if (cached)` tests treat every stored value as present. The model therefore reads a cache hit as "value present".

## Findings

| source | as written | input that shows it | evidently intended | confidence | as-written member | corrected member |
|---|---|---|---|---|---|---|
| src/mastra/lib/cache-manager.ts:134 | `evictLRU` deletes the chosen key only if it is truthy, so an entry stored under the empty key is never evicted | A cache with `maxSize` 5 holding one 10-byte entry under `""`; any `set` then loops forever, because the guard at lines 62-65 stays true and `evictLRU` changes nothing (`CacheProperties.EmptyKeyStallsEviction`) | Evict the chosen key whenever one was found (`lruKey !== undefined`) | not executed; none of the tools uses the empty key | `CacheManager.EvictLruAsWritten` | `CacheManager.EvictLru` |

=== FILE: cache_manager.dfy ===
/** The size-bounded, TTL-expiring, least-recently-used store of
    `src/mastra/lib/cache-manager.ts`, as an immutable value. Every
    operation takes the cache and returns the new cache; the clock reading
    `now` and the byte-size estimate `sizeOf` are parameters.

    `order` is the iteration order of the JavaScript `Map` behind the cache:
    keys in first-insertion order. Replacing the value of a present key
    keeps its place; deleting it and inserting it again moves it to the
    end. The least-recently-used scan walks this order, so ties go to the
    key inserted first. */
module CacheManager {
  import opened Wrappers

  /** `CacheEntry` of types.ts. */
  datatype Entry<V> = Entry(value: V, expiresAt: int, size: nat, accessCount: nat, lastAccessed: int)

  /** `CacheStats` of types.ts. */
  datatype Stats = Stats(hits: nat, misses: nat, evictions: nat, size: int, maxSize: int, itemCount: int)

  /** `CacheConfig` of types.ts with the default for `checkInterval` applied. */
  datatype Config = Config(ttl: int, maxSize: int, checkInterval: int)

  datatype Cache<V> = Cache(entries: map<string, Entry<V>>, order: seq<string>, stats: Stats, config: Config)

  /** What `get` returns, together with the cache it leaves behind. */
  datatype Lookup<V> = Lookup(cache: Cache<V>, value: Option<V>)

  /** What `delete` returns, together with the cache it leaves behind. */
  datatype Deleted<V> = Deleted(cache: Cache<V>, removed: bool)

  const DefaultCheckInterval: int := 60000

  /** The module-level `indexCache`: one hour, 10 MB. */
  const IndexCacheTtl: int := 60 * 60 * 1000
  const IndexCacheMaxSize: int := 10 * 1024 * 1024

  /** The module-level `pageCache`: thirty minutes, 50 MB. */
  const PageCacheTtl: int := 30 * 60 * 1000
  const PageCacheMaxSize: int := 50 * 1024 * 1024

  // ---------------------------------------------------------------------
  // The representation invariant
  // ---------------------------------------------------------------------

  predicate NoDup(s: seq<string>) {
    forall i, j :: 0 <= i < j < |s| ==> s[i] != s[j]
  }

  /** Byte size of the entry stored under `k`, zero when there is none. */
  function SizeAt<V>(m: map<string, Entry<V>>, k: string): nat {
    if k in m then m[k].size else 0
  }

  /** Sum of the sizes of the entries stored under the keys of `order`. */
  ghost function SumSizes<V>(order: seq<string>, m: map<string, Entry<V>>): nat {
    if |order| == 0 then 0 else SizeAt(m, order[0]) + SumSizes(order[1..], m)
  }

  /** What every reachable cache satisfies: `order` lists each stored key
      exactly once, the running `size` is the sum of the stored entries'
      sizes, `itemCount` is the number of stored entries, and the reported
      `maxSize` is the configured one. */
  ghost predicate Valid<V>(c: Cache<V>) {
    && NoDup(c.order)
    && (forall k :: k in c.entries <==> k in c.order)
    && c.stats.size == SumSizes(c.order, c.entries)
    && c.stats.itemCount == |c.order|
    && c.stats.maxSize == c.config.maxSize
  }

  /** `s` without `k`. */
  function Without(s: seq<string>, k: string): (r: seq<string>)
    ensures forall x :: x in r <==> x in s && x != k
    ensures NoDup(s) ==> NoDup(r)
    ensures k !in s ==> r == s
    ensures NoDup(s) && k in s ==> |r| == |s| - 1
  {
    if |s| == 0 then []
    else if s[0] == k then Without(s[1..], k)
    else
      var rest := Without(s[1..], k);
      NoDupCons(s[0], rest);
      [s[0]] + rest
  }

  lemma NoDupCons(x: string, s: seq<string>)
    ensures x !in s && NoDup(s) ==> NoDup([x] + s)
  {
    var t := [x] + s;
    forall i, j | 0 <= i < j < |t| && x !in s && NoDup(s)
      ensures t[i] != t[j]
    {
      if i > 0 {
        assert t[i] == s[i - 1] && t[j] == s[j - 1];
      } else {
        assert t[j] == s[j - 1];
      }
    }
  }

  lemma NoDupSnoc(s: seq<string>, x: string)
    requires x !in s && NoDup(s)
    ensures NoDup(s + [x])
  {
  }

  /** The keys of `s` that lie in `keys`, in the order of `s`: what is
      left of a `Map`'s iteration order once every other key is deleted. */
  function Restrict(s: seq<string>, keys: set<string>): (r: seq<string>)
    ensures forall x :: x in r <==> x in s && x in keys
    ensures NoDup(s) ==> NoDup(r)
  {
    if |s| == 0 then []
    else
      var rest := Restrict(s[1..], keys);
      if s[0] in keys then
        NoDupCons(s[0], rest);
        [s[0]] + rest
      else rest
  }

  /** Keeping every key keeps the whole order. */
  lemma {:induction false} RestrictAll(s: seq<string>, keys: set<string>)
    requires forall x :: x in s ==> x in keys
    ensures Restrict(s, keys) == s
  {
    if |s| > 0 {
      RestrictAll(s[1..], keys);
    }
  }

  /** Deleting a key that is not kept anyway does not change what is kept. */
  lemma {:induction false} RestrictWithout(s: seq<string>, k: string, keys: set<string>)
    requires k !in keys
    ensures Restrict(Without(s, k), keys) == Restrict(s, keys)
  {
    if |s| > 0 {
      RestrictWithout(s[1..], k, keys);
      if s[0] != k {
        assert Without(s, k)[1..] == Without(s[1..], k);
      }
    }
  }

  lemma {:induction false} SumSizesAgree<V>(order: seq<string>, m1: map<string, Entry<V>>, m2: map<string, Entry<V>>)
    requires forall k :: k in order ==> SizeAt(m1, k) == SizeAt(m2, k)
    ensures SumSizes(order, m1) == SumSizes(order, m2)
    decreases |order|
  {
    if |order| > 0 {
      SumSizesAgree(order[1..], m1, m2);
    }
  }

  lemma {:induction false} SumSizesWithout<V>(order: seq<string>, m: map<string, Entry<V>>, k: string)
    requires NoDup(order)
    ensures SumSizes(Without(order, k), m) == SumSizes(order, m) - (if k in order then SizeAt(m, k) else 0)
    decreases |order|
  {
    if |order| > 0 {
      SumSizesWithout(order[1..], m, k);
      if order[0] != k {
        var w := Without(order, k);
        assert w[1..] == Without(order[1..], k);
      } else {
        assert k !in order[1..];
      }
    }
  }

  lemma {:induction false} SumSizesAppend<V>(order: seq<string>, m: map<string, Entry<V>>, k: string)
    ensures SumSizes(order + [k], m) == SumSizes(order, m) + SizeAt(m, k)
    decreases |order|
  {
    if |order| == 0 {
      assert order + [k] == [k];
    } else {
      assert (order + [k])[1..] == order[1..] + [k];
      SumSizesAppend(order[1..], m, k);
    }
  }

  lemma {:induction false} SumSizesUpdate<V>(order: seq<string>, m: map<string, Entry<V>>, k: string, e: Entry<V>)
    requires NoDup(order) && k in order
    ensures SumSizes(order, m[k := e]) == SumSizes(order, m) - SizeAt(m, k) + e.size
    decreases |order|
  {
    if order[0] == k {
      assert k !in order[1..];
      SumSizesAgree(order[1..], m[k := e], m);
    } else {
      SumSizesUpdate(order[1..], m, k, e);
    }
  }

  lemma {:induction false} DistinctCard(s: seq<string>)
    requires NoDup(s)
    ensures |(set k | k in s)| == |s|
    decreases |s|
  {
    if |s| > 0 {
      DistinctCard(s[1..]);
      assert (set k | k in s) == {s[0]} + (set k | k in s[1..]);
    }
  }

  /** `itemCount` is the number of stored entries and `size` the sum of
      their sizes, whatever sequence of operations led to the cache. */
  lemma StatsMatchEntries<V>(c: Cache<V>)
    requires Valid(c)
    ensures c.stats.itemCount == |c.entries|
    ensures c.stats.size == SumSizes(c.order, c.entries) >= 0
  {
    DistinctCard(c.order);
    assert c.entries.Keys == (set k | k in c.order);
  }

  // ---------------------------------------------------------------------
  // Operations
  // ---------------------------------------------------------------------

  /** The constructor: an empty cache with zeroed statistics; a missing
      `checkInterval` defaults to one minute. */
  function New<V>(ttl: int, maxSize: int, checkInterval: Option<int>): (c: Cache<V>)
    ensures Valid(c)
    ensures c.entries == map[] && c.config.ttl == ttl && c.stats.maxSize == maxSize
    ensures c.stats.hits == 0 && c.stats.misses == 0 && c.stats.evictions == 0
    ensures c.stats.size == 0 && c.stats.itemCount == 0
    ensures checkInterval.None? ==> c.config.checkInterval == DefaultCheckInterval
  {
    Cache(map[], [], Stats(0, 0, 0, 0, maxSize, 0), Config(ttl, maxSize, checkInterval.GetOr(DefaultCheckInterval)))
  }

  /** `delete(key)`: removes `key` if present and reports whether it was. */
  function Delete<V>(c: Cache<V>, key: string): (r: Deleted<V>)
    requires Valid(c)
    ensures Valid(r.cache)
    ensures r.removed <==> key in c.entries
    ensures r.cache.entries == c.entries - {key}
    ensures r.cache.order == Without(c.order, key)
    ensures r.cache.stats.hits == c.stats.hits && r.cache.stats.misses == c.stats.misses
    ensures r.cache.stats.evictions == c.stats.evictions && r.cache.config == c.config
    ensures key !in c.entries ==> r.cache == c
    ensures key in c.entries ==>
              r.cache.stats == c.stats.(size := c.stats.size - c.entries[key].size, itemCount := c.stats.itemCount - 1)
  {
    if key !in c.entries then Deleted(c, false)
    else
      var order := Without(c.order, key);
      var entries := c.entries - {key};
      var stats := c.stats.(size := c.stats.size - c.entries[key].size, itemCount := c.stats.itemCount - 1);
      SumSizesWithout(c.order, c.entries, key);
      SumSizesAgree(order, entries, c.entries);
      Deleted(Cache(entries, order, stats, c.config), true)
  }

  /** `get(key)` at time `now`. An absent key, or an entry whose
      `expiresAt` lies strictly before `now`, is a miss; the expired entry
      is deleted on the way. A hit bumps the entry's `accessCount`, stamps
      its `lastAccessed` with `now`, and counts a hit. */
  function Get<V>(c: Cache<V>, key: string, now: int): (r: Lookup<V>)
    requires Valid(c)
    ensures Valid(r.cache)
    ensures r.value.Some? <==> key in c.entries && now <= c.entries[key].expiresAt
    ensures r.value.Some? ==> r.value.value == c.entries[key].value
    ensures r.value.Some? ==>
              && r.cache.entries == c.entries[key := c.entries[key].(accessCount := c.entries[key].accessCount + 1, lastAccessed := now)]
              && r.cache.order == c.order
              && r.cache.stats == c.stats.(hits := c.stats.hits + 1)
    ensures r.value.None? ==>
              && r.cache.entries == c.entries - {key}
              && r.cache.stats.misses == c.stats.misses + 1
              && r.cache.stats.hits == c.stats.hits
              && r.cache.stats.evictions == c.stats.evictions
              && r.cache.order == Without(c.order, key)
    ensures key !in c.entries ==> r.cache == c.(stats := c.stats.(misses := c.stats.misses + 1))
    ensures key in c.entries && now > c.entries[key].expiresAt ==>
              r.cache.stats == c.stats.(misses := c.stats.misses + 1,
                                        size := c.stats.size - c.entries[key].size,
                                        itemCount := c.stats.itemCount - 1)
    ensures r.cache.config == c.config
  {
    if key !in c.entries then
      Lookup(c.(stats := c.stats.(misses := c.stats.misses + 1)), None)
    else if now > c.entries[key].expiresAt then
      var d := Delete(c, key).cache;
      Lookup(d.(stats := d.stats.(misses := d.stats.misses + 1)), None)
    else
      var e := c.entries[key];
      var e' := e.(accessCount := e.accessCount + 1, lastAccessed := now);
      SumSizesUpdate(c.order, c.entries, key, e');
      Lookup(c.(entries := c.entries[key := e'], stats := c.stats.(hits := c.stats.hits + 1)), Some(e.value))
  }

  /** The `lastAccessed` stamp of the entry at position `j` of the order. */
  function AccessedAt<V>(c: Cache<V>, j: int): int
    requires Valid(c) && 0 <= j < |c.order|
  {
    c.entries[c.order[j]].lastAccessed
  }

  /** Among the first `n` keys of the order, the one at `m` was accessed no
      later than any other, and strictly earlier than every key before it. */
  ghost predicate FirstOldest<V>(c: Cache<V>, m: int, n: int)
    requires Valid(c) && 0 <= m < n <= |c.order|
  {
    && (forall j :: 0 <= j < n ==> AccessedAt(c, m) <= AccessedAt(c, j))
    && (forall j :: 0 <= j < m ==> AccessedAt(c, j) > AccessedAt(c, m))
  }

  /** The scan of `evictLRU`: walk the order keeping the first entry whose
      `lastAccessed` is strictly below the best so far; `None` plays the
      initial `Infinity`. */
  function LruScan<V>(c: Cache<V>, i: nat, best: Option<nat>): (r: Option<nat>)
    requires Valid(c) && i <= |c.order|
    requires best.None? <==> i == 0
    requires best.Some? ==> best.value < i && FirstOldest(c, best.value, i)
    ensures r.None? <==> |c.order| == 0
    ensures r.Some? ==> r.value < |c.order| && FirstOldest(c, r.value, |c.order|)
    decreases |c.order| - i
  {
    if i == |c.order| then best
    else if best.None? || AccessedAt(c, i) < AccessedAt(c, best.value) then LruScan(c, i + 1, Some(i))
    else LruScan(c, i + 1, best)
  }

  /** Position of the least-recently-used entry, first in order on ties. */
  function OldestIndex<V>(c: Cache<V>): (r: Option<nat>)
    requires Valid(c)
    ensures r.None? <==> |c.order| == 0
    ensures r.Some? ==> r.value < |c.order| && FirstOldest(c, r.value, |c.order|)
  {
    LruScan(c, 0, None)
  }

  /** `evictLRU` as written: the chosen key must be truthy, so an
      entry stored under the empty key is never evicted. */
  function EvictLruAsWritten<V>(c: Cache<V>): (r: Cache<V>)
    requires Valid(c)
    ensures Valid(r)
    ensures |c.order| > 0 && c.order[OldestIndex(c).value] == "" ==> r == c
  {
    match OldestIndex(c)
    case None => c
    case Some(m) =>
      if c.order[m] != "" then
        var d := Delete(c, c.order[m]).cache;
        d.(stats := d.stats.(evictions := d.stats.evictions + 1))
      else c
  }

  /** `evictLRU` with the chosen key checked for presence rather than
      truthiness: on a non-empty cache it deletes exactly the
      least-recently-used entry (first in order on ties) and counts one
      eviction; on an empty cache it does nothing. */
  function EvictLru<V>(c: Cache<V>): (r: Cache<V>)
    requires Valid(c)
    ensures Valid(r)
    ensures |c.order| == 0 ==> r == c
    ensures |c.order| > 0 ==>
              var v := c.order[OldestIndex(c).value];
              && r.entries == c.entries - {v}
              && r.order == Without(c.order, v)
              && |r.order| == |c.order| - 1
              && r.stats.size == c.stats.size - c.entries[v].size
              && r.stats.itemCount == c.stats.itemCount - 1
              && r.stats.evictions == c.stats.evictions + 1
              && r.stats.hits == c.stats.hits && r.stats.misses == c.stats.misses
              && r.config == c.config
  {
    if |c.order| == 0 then c
    else
      var v := c.order[OldestIndex(c).value];
      CountEviction(Delete(c, v).cache)
  }

  /** One more eviction on the counter; nothing else changes. */
  function CountEviction<V>(c: Cache<V>): (r: Cache<V>)
    requires Valid(c)
    ensures Valid(r)
    ensures r.entries == c.entries && r.order == c.order && r.config == c.config
    ensures r.stats == c.stats.(evictions := c.stats.evictions + 1)
  {
    c.(stats := c.stats.(evictions := c.stats.evictions + 1))
  }

  /** The entry `evictLRU` picks was accessed no later than any other. */
  lemma OldestIsOldest<V>(c: Cache<V>)
    requires Valid(c) && |c.order| > 0
    ensures forall j :: j in c.entries ==>
              c.entries[c.order[OldestIndex(c).value]].lastAccessed <= c.entries[j].lastAccessed
  {
    var m := OldestIndex(c).value;
    forall j | j in c.entries
      ensures c.entries[c.order[m]].lastAccessed <= c.entries[j].lastAccessed
    {
      var p :| 0 <= p < |c.order| && c.order[p] == j;
      assert AccessedAt(c, m) <= AccessedAt(c, p);
    }
  }

  /** `n` rounds of (corrected) `evictLRU`: the cache after the `n`-th
      iteration of the eviction loop of `set`. The survivors are untouched. */
  function EvictN<V>(c: Cache<V>, n: nat): (r: Cache<V>)
    requires Valid(c)
    ensures Valid(r)
    ensures forall k :: k in r.entries ==> k in c.entries && r.entries[k] == c.entries[k]
    ensures |r.order| == if n <= |c.order| then |c.order| - n else 0
    decreases n
  {
    if n == 0 || |c.order| == 0 then c else EvictN(EvictLru(c), n - 1)
  }

  /** One more round of eviction is `evictLRU` applied to the last cache. */
  lemma {:induction false} EvictNLast<V>(c: Cache<V>, n: nat)
    requires Valid(c)
    ensures EvictN(c, n + 1) == EvictLru(EvictN(c, n))
    decreases n
  {
    if n > 0 {
      EvictNLast(EvictLru(c), n - 1);
    }
  }

  /** The eviction loop of `set`: evict while the incoming value would not
      fit and something is left to evict. It runs exactly `m` rounds of
      `evictLRU`, where before each round the value did not fit and the
      cache was not empty, and afterwards it fits or the cache is empty.
      The survivors are untouched and keep their order; one eviction is
      counted per removed entry; and no removed entry was accessed later
      than any survivor. */
  function EvictUntilFits<V>(c: Cache<V>, incoming: nat): (r: Cache<V>)
    requires Valid(c)
    ensures Valid(r)
    ensures r.stats.size + incoming <= r.config.maxSize || r.entries == map[]
    ensures |r.order| <= |c.order|
    ensures forall k :: k in r.entries ==> k in c.entries && r.entries[k] == c.entries[k]
    ensures r.order == Restrict(c.order, r.entries.Keys)
    ensures r.stats.evictions == c.stats.evictions + (|c.order| - |r.order|)
    ensures r.stats.hits == c.stats.hits && r.stats.misses == c.stats.misses
    ensures r.config == c.config
    ensures forall k, j :: k in c.entries && k !in r.entries && j in r.entries ==>
              c.entries[k].lastAccessed <= c.entries[j].lastAccessed
    ensures c.stats.size + incoming <= c.config.maxSize || c.entries == map[] ==> r == c
    ensures |r.order| == |c.order| ==> r == c
    decreases |c.order|
  {
    StatsMatchEntries(c);
    if c.stats.size + incoming > c.config.maxSize && |c.entries| > 0 then
      var c1 := EvictLru(c);
      var r := EvictUntilFits(c1, incoming);
      EvictedAreOldest(c, c1, r);
      RestrictWithout(c.order, c.order[OldestIndex(c).value], r.entries.Keys);
      r
    else
      RestrictAll(c.order, c.entries.Keys);
      c
  }

  /** How many times the eviction loop of `set` tests its guard and finds
      it true. */
  function Rounds<V>(c: Cache<V>, incoming: nat): (m: nat)
    requires Valid(c)
    ensures m <= |c.order|
    decreases |c.order|
  {
    StatsMatchEntries(c);
    if c.stats.size + incoming > c.config.maxSize && |c.entries| > 0 then 1 + Rounds(EvictLru(c), incoming) else 0
  }

  /** `r` is the cache after the first `m` rounds of the eviction loop
      of `set` for a value of size `incoming`, `m` entries are gone, and
      each of those rounds was taken while the value did not fit and the
      cache was not empty. */
  ghost predicate LoopRounds<V>(c: Cache<V>, incoming: nat, r: Cache<V>, m: nat)
    requires Valid(c)
  {
    && r == EvictN(c, m)
    && |c.order| - |r.order| == m
    && forall i :: 0 <= i < m ==>
         EvictN(c, i).stats.size + incoming > c.config.maxSize && EvictN(c, i).entries != map[]
  }

  /** The eviction loop runs exactly as many rounds of `evictLRU` as it
      needs: it ends in the cache after `Rounds` rounds, that is the number
      of entries it removed, and before each of those rounds the incoming
      value did not fit and the cache was not empty. Together with the
      postcondition that the value fits or the cache is empty at the end,
      this pins the round count down as the first one at which the loop
      guard fails. */
  lemma {:induction false} EvictUntilFitsRounds<V>(c: Cache<V>, incoming: nat)
    requires Valid(c)
    ensures LoopRounds(c, incoming, EvictUntilFits(c, incoming), Rounds(c, incoming))
    decreases |c.order|
  {
    StatsMatchEntries(c);
    if c.stats.size + incoming > c.config.maxSize && |c.entries| > 0 {
      var c1 := EvictLru(c);
      EvictUntilFitsRounds(c1, incoming);
      GuardHolds(c, incoming);
      RoundsShift(c, EvictUntilFits(c1, incoming), Rounds(c1, incoming), incoming);
    } else {
      RoundsStop(c, incoming);
    }
  }

  /** `EvictUntilFitsRounds` when the guard fails at once: no rounds. */
  lemma RoundsStop<V>(c: Cache<V>, incoming: nat)
    requires Valid(c) && !(c.stats.size + incoming > c.config.maxSize && |c.entries| > 0)
    ensures LoopRounds(c, incoming, EvictUntilFits(c, incoming), Rounds(c, incoming))
  {
    assert EvictUntilFits(c, incoming) == c && Rounds(c, incoming) == 0;
    assert EvictN(c, 0) == c;
  }

  /** One eviction from `c` followed by `m` loop rounds from what is left
      are `m + 1` loop rounds from `c`. */
  lemma RoundsShift<V>(c: Cache<V>, r: Cache<V>, m: nat, incoming: nat)
    requires Valid(c) && c.stats.size + incoming > c.config.maxSize && |c.entries| > 0
    ensures LoopRounds(EvictLru(c), incoming, r, m) ==> LoopRounds(c, incoming, r, m + 1)
  {
    var c1 := EvictLru(c);
    if LoopRounds(c1, incoming, r, m) {
      EvictionsNeeded(c, c1, m, incoming);
      assert |c1.order| + 1 == |c.order|;
    }
  }

  /** One turn of the loop: with the guard true, the loop and its round
      count continue from the cache with one entry evicted. */
  lemma GuardHolds<V>(c: Cache<V>, incoming: nat)
    requires Valid(c) && c.stats.size + incoming > c.config.maxSize && |c.entries| > 0
    ensures EvictUntilFits(c, incoming) == EvictUntilFits(EvictLru(c), incoming)
    ensures Rounds(c, incoming) == Rounds(EvictLru(c), incoming) + 1
  {
  }

  /** The step behind the survivor clauses of `EvictUntilFits`: evicting
      the least-recently-used entry first and then more from what is left
      removes only entries no more recent than any survivor. */
  lemma EvictedAreOldest<V>(c: Cache<V>, c1: Cache<V>, r: Cache<V>)
    requires Valid(c) && |c.order| > 0 && c1 == EvictLru(c)
    requires forall k :: k in r.entries ==> k in c1.entries && r.entries[k] == c1.entries[k]
    requires forall k, j :: k in c1.entries && k !in r.entries && j in r.entries ==>
               c1.entries[k].lastAccessed <= c1.entries[j].lastAccessed
    ensures forall k :: k in r.entries ==> k in c.entries && r.entries[k] == c.entries[k]
    ensures forall k, j :: k in c.entries && k !in r.entries && j in r.entries ==>
              c.entries[k].lastAccessed <= c.entries[j].lastAccessed
  {
    OldestIsOldest(c);
  }

  /** The step behind the round-count clauses of `EvictUntilFits`: if the
      value did not fit in `c`, and it did not fit before any of the `m`
      rounds that followed the first eviction, it did not fit before any
      of the `m + 1` rounds from `c`. */
  lemma EvictionsNeeded<V>(c: Cache<V>, c1: Cache<V>, m: nat, incoming: nat)
    requires Valid(c) && c1 == EvictLru(c)
    requires c.stats.size + incoming > c.config.maxSize && c.entries != map[]
    requires forall i :: 0 <= i < m ==>
               EvictN(c1, i).stats.size + incoming > c1.config.maxSize && EvictN(c1, i).entries != map[]
    ensures forall i :: 0 <= i < m + 1 ==>
              EvictN(c, i).stats.size + incoming > c.config.maxSize && EvictN(c, i).entries != map[]
    ensures EvictN(c, m + 1) == EvictN(c1, m)
  {
    forall i | 0 < i < m + 1
      ensures EvictN(c, i).stats.size + incoming > c.config.maxSize && EvictN(c, i).entries != map[]
    {
      assert EvictN(c, i) == EvictN(c1, i - 1);
    }
  }

  /** The loop stops as soon as the value fits: a round taken while the
      value did not fit and the cache was not empty removes an entry that
      would not fit back. With the round clauses of `EvictUntilFits`,
      applied to the last of its rounds, this is: when the loop evicts at
      all, the entry removed last was still needed. */
  lemma LastEvictionNeeded<V>(c: Cache<V>, n: nat, incoming: nat)
    requires Valid(c)
    ensures var p := EvictN(c, n);
            p.stats.size + incoming > c.config.maxSize && p.entries != map[] ==>
            && |p.order| > 0
            && EvictN(c, n + 1) == EvictLru(p)
            && var v := p.order[OldestIndex(p).value];
               && v in c.entries && v !in EvictN(c, n + 1).entries
               && EvictN(c, n + 1).stats.size + c.entries[v].size + incoming > c.config.maxSize
  {
    var p := EvictN(c, n);
    EvictNLast(c, n);
    if p.stats.size + incoming > c.config.maxSize && p.entries != map[] {
      var k :| k in p.entries;
      assert k in p.order;
    }
  }

  /** The insertion step of `set`: store `entry` under `key`, replacing an
      entry already there in place, and adjust `size` and `itemCount`. */
  function Store<V>(c: Cache<V>, key: string, entry: Entry<V>): (r: Cache<V>)
    requires Valid(c)
    ensures Valid(r)
    ensures r.entries == c.entries[key := entry]
    ensures r.stats.size == c.stats.size - SizeAt(c.entries, key) + entry.size
    ensures r.stats.hits == c.stats.hits && r.stats.misses == c.stats.misses
    ensures r.stats.evictions == c.stats.evictions && r.config == c.config
    ensures r.order == if key in c.entries then c.order else c.order + [key]
  {
    if key in c.entries then
      SumSizesUpdate(c.order, c.entries, key, entry);
      c.(entries := c.entries[key := entry],
         stats := c.stats.(size := c.stats.size - c.entries[key].size + entry.size))
    else
      var entries := c.entries[key := entry];
      SumSizesAppend(c.order, entries, key);
      SumSizesAgree(c.order, entries, c.entries);
      NoDupSnoc(c.order, key);
      c.(entries := entries, order := c.order + [key],
         stats := c.stats.(size := c.stats.size + entry.size, itemCount := c.stats.itemCount + 1))
  }

  /** `r` is what `set` leaves after exactly `m` rounds of eviction: the
      value of size `size` did not fit, in a non-empty cache, before any
      of the rounds; it fits, or the cache is empty, after the last; and
      `entry`, of size `size`, is then stored under `key`. The order of `r` is the old order
      of the survivors, with `key` in its old place if it survived and at
      the end otherwise. */
  ghost predicate StoredAfterRounds<V>(c: Cache<V>, m: nat, size: nat, key: string, entry: Entry<V>, r: Cache<V>)
    requires Valid(c)
  {
    && entry.size == size
    && m <= |c.order|
    && (forall i :: 0 <= i < m ==>
          EvictN(c, i).stats.size + size > c.config.maxSize && EvictN(c, i).entries != map[])
    && (EvictN(c, m).stats.size + size <= c.config.maxSize || EvictN(c, m).entries == map[])
    && r == Store(EvictN(c, m), key, entry)
    && r.order == if key in EvictN(c, m).entries then Restrict(c.order, r.entries.Keys)
                  else Restrict(c.order, r.entries.Keys - {key}) + [key]
  }

  /** `set(key, value)` at time `now`: evict until `sizeOf(value)` fits,
      then store a fresh entry for `key`. */
  function Set<V>(c: Cache<V>, key: string, value: V, now: int, sizeOf: V -> nat): (r: Cache<V>)
    requires Valid(c)
    ensures Valid(r)
    ensures key in r.entries && r.entries[key] == Entry(value, now + c.config.ttl, sizeOf(value), 0, now)
    ensures r.stats.size <= r.config.maxSize || r.entries.Keys == {key}
    ensures forall k :: k in r.entries && k != key ==> k in c.entries && r.entries[k] == c.entries[k]
    ensures r.stats.hits == c.stats.hits && r.stats.misses == c.stats.misses
    ensures r.stats.evictions >= c.stats.evictions
    ensures r.config == c.config
    ensures c.stats.size + sizeOf(value) <= c.config.maxSize ==>
              && (forall k :: k in c.entries ==> k in r.entries)
              && r.stats.evictions == c.stats.evictions
              && r.order == if key in c.entries then c.order else c.order + [key]
    ensures StoredAfterRounds(c, Rounds(c, sizeOf(value)), sizeOf(value), key,
                              Entry(value, now + c.config.ttl, sizeOf(value), 0, now), r)
  {
    var size := sizeOf(value);
    var entry := Entry(value, now + c.config.ttl, size, 0, now);
    var e := EvictUntilFits(c, size);
    var r := Store(e, key, entry);
    StoreFits(e, key, entry, r);
    SetRounds(c, key, entry);
    r
  }

  /** Packs the round count of the eviction loop into the last clause of
      `Set`. */
  lemma SetRounds<V>(c: Cache<V>, key: string, entry: Entry<V>)
    requires Valid(c)
    ensures StoredAfterRounds(c, Rounds(c, entry.size), entry.size, key, entry,
                              Store(EvictUntilFits(c, entry.size), key, entry))
  {
    var e := EvictUntilFits(c, entry.size);
    var r := Store(e, key, entry);
    var m := Rounds(c, entry.size);
    EvictUntilFitsRounds(c, entry.size);
    assert LoopRounds(c, entry.size, e, m);
    assert e == EvictN(c, m);
    assert e.stats.size + entry.size <= c.config.maxSize || e.entries == map[];
    StoreOrder(c, e, key, entry, r);
    assert StoredAfterRounds(c, m, entry.size, key, entry, r);
  }

  /** Where the stored key lands in the order: at its old place if it
      survived the eviction loop, at the end otherwise. */
  lemma StoreOrder<V>(c: Cache<V>, e: Cache<V>, key: string, entry: Entry<V>, r: Cache<V>)
    requires e.order == Restrict(c.order, e.entries.Keys)
    requires r.entries == e.entries[key := entry]
    requires r.order == if key in e.entries then e.order else e.order + [key]
    ensures r.order == if key in e.entries then Restrict(c.order, r.entries.Keys)
                       else Restrict(c.order, r.entries.Keys - {key}) + [key]
  {
    if key in e.entries {
      assert r.entries.Keys == e.entries.Keys;
    } else {
      assert r.entries.Keys - {key} == e.entries.Keys;
    }
  }

  /** After the eviction loop, storing the new entry stays within budget
      unless the new entry is all that is left. */
  lemma StoreFits<V>(e: Cache<V>, key: string, entry: Entry<V>, r: Cache<V>)
    requires e.stats.size + entry.size <= e.config.maxSize || e.entries == map[]
    requires r.entries == e.entries[key := entry] && r.config == e.config
    requires r.stats.size == e.stats.size - SizeAt(e.entries, key) + entry.size
    ensures r.stats.size <= r.config.maxSize || r.entries.Keys == {key}
  {
    if e.entries == map[] {
      assert r.entries == map[key := entry];
    }
  }

  /** The entries `set` evicts are least recently used: none of them was
      accessed later than any entry that survives beside the new one. */
  lemma SetEvictsLeastRecentlyUsed<V>(c: Cache<V>, key: string, value: V, now: int, sizeOf: V -> nat)
    requires Valid(c)
    ensures var r := Set(c, key, value, now, sizeOf);
            forall k, j :: k in c.entries && k !in r.entries && j in r.entries && j != key ==>
              c.entries[k].lastAccessed <= c.entries[j].lastAccessed
  {
    var e := EvictUntilFits(c, sizeOf(value));
    var r := Set(c, key, value, now, sizeOf);
    assert r == Store(e, key, Entry(value, now + c.config.ttl, sizeOf(value), 0, now));
    forall k, j | k in c.entries && k !in r.entries && j in r.entries && j != key
      ensures c.entries[k].lastAccessed <= c.entries[j].lastAccessed
    {
      assert k !in e.entries && j in e.entries;
    }
  }

  /** `clear()`: drops every entry and zeroes `size`, `itemCount` and
      `evictions`; `hits` and `misses` survive. */
  function Clear<V>(c: Cache<V>): (r: Cache<V>)
    ensures Valid(c) ==> Valid(r)
    ensures r.entries == map[]
    ensures r.stats.size == 0 && r.stats.itemCount == 0 && r.stats.evictions == 0
    ensures r.stats.hits == c.stats.hits && r.stats.misses == c.stats.misses
    ensures r.config == c.config
  {
    c.(entries := map[], order := [], stats := c.stats.(size := 0, itemCount := 0, evictions := 0))
  }

  /** `destroy()`: stopping the sweep timer is outside the model, so what is
      left is `clear()`; calling it again changes nothing. */
  function Destroy<V>(c: Cache<V>): (r: Cache<V>)
    ensures Valid(c) ==> Valid(r)
    ensures r.entries == map[] && r.stats.size == 0 && r.stats.itemCount == 0
    ensures r.stats.evictions == 0 && r.stats.hits == c.stats.hits && r.stats.misses == c.stats.misses
    ensures r.config == c.config
  {
    Clear(c)
  }

  /** `destroy()` may be called any number of times. */
  lemma DestroyIdempotent<V>(c: Cache<V>)
    ensures Destroy(Destroy(c)) == Destroy(c)
  {
  }

  /** `getStats()`: a copy of the counters, whose `size` and `itemCount`
      agree with the stored entries. */
  function GetStats<V>(c: Cache<V>): (r: Stats)
    requires Valid(c)
    ensures r.itemCount == |c.entries|
    ensures r.size == SumSizes(c.order, c.entries)
    ensures r.maxSize == c.config.maxSize
    ensures r.hits == c.stats.hits && r.misses == c.stats.misses && r.evictions == c.stats.evictions
  {
    StatsMatchEntries(c);
    c.stats
  }

  /** The keys of `order` whose entries have expired at `now`, in order. */
  function ExpiredKeys<V>(order: seq<string>, m: map<string, Entry<V>>, now: int): (ks: seq<string>)
    ensures forall k :: k in ks <==> k in order && k in m && now > m[k].expiresAt
  {
    if |order| == 0 then []
    else
      var rest := ExpiredKeys(order[1..], m, now);
      assert forall k :: k in order <==> k == order[0] || k in order[1..];
      if order[0] in m && now > m[order[0]].expiresAt then [order[0]] + rest else rest
  }

  /** `delete` applied to each of `ks` in turn. */
  function DeleteAll<V>(c: Cache<V>, ks: seq<string>): (r: Cache<V>)
    requires Valid(c)
    ensures Valid(r)
    ensures forall k :: k in r.entries <==> k in c.entries && k !in ks
    ensures forall k :: k in r.entries ==> r.entries[k] == c.entries[k]
    ensures r.order == Restrict(c.order, r.entries.Keys)
    ensures r.stats.hits == c.stats.hits && r.stats.misses == c.stats.misses
    ensures r.stats.evictions == c.stats.evictions && r.config == c.config
    decreases |ks|
  {
    if |ks| == 0 then
      RestrictAll(c.order, c.entries.Keys);
      c
    else
      var r := DeleteAll(Delete(c, ks[0]).cache, ks[1..]);
      assert forall k :: k in ks <==> k == ks[0] || k in ks[1..];
      RestrictWithout(c.order, ks[0], r.entries.Keys);
      r
  }

  /** The periodic sweep `cleanup()` at time `now`: exactly the entries
      with `now > expiresAt` go, the others stay as they were, and the
      hit, miss and eviction counters do not move. */
  function Cleanup<V>(c: Cache<V>, now: int): (r: Cache<V>)
    requires Valid(c)
    ensures Valid(r)
    ensures forall k :: k in r.entries <==> k in c.entries && now <= c.entries[k].expiresAt
    ensures forall k :: k in r.entries ==> r.entries[k] == c.entries[k]
    ensures r.order == Restrict(c.order, r.entries.Keys)
    ensures r.stats.hits == c.stats.hits && r.stats.misses == c.stats.misses
    ensures r.stats.evictions == c.stats.evictions && r.config == c.config
  {
    DeleteAll(c, ExpiredKeys(c.order, c.entries, now))
  }
}

=== FILE: cache_properties.dfy ===
/** Properties of the cache manager that relate several operations: what a
    later `get` observes after `set`, `delete`, `clear` and the sweep; the
    statistics invariant across any sequence of calls; and the stall of the
    eviction loop on an entry stored under the empty key. */
module CacheProperties {
  import opened Wrappers
  import opened CacheManager

  /** A value stored by `set` at `t0` is returned by `get` up to and
      including `t0 + ttl`. */
  lemma SetThenGetHit<V>(c: Cache<V>, key: string, value: V, t0: int, sizeOf: V -> nat, t1: int)
    requires Valid(c)
    requires t1 <= t0 + c.config.ttl
    ensures Get(Set(c, key, value, t0, sizeOf), key, t1).value == Some(value)
  {
  }

  /** After `t0 + ttl` the same `get` misses and drops the entry, whether
      or not the sweep has run. */
  lemma SetThenGetExpired<V>(c: Cache<V>, key: string, value: V, t0: int, sizeOf: V -> nat, t1: int)
    requires Valid(c)
    requires t1 > t0 + c.config.ttl
    ensures var r := Get(Set(c, key, value, t0, sizeOf), key, t1);
            r.value == None && key !in r.cache.entries
  {
  }

  lemma DeleteThenGetMisses<V>(c: Cache<V>, key: string, now: int)
    requires Valid(c)
    ensures Get(Delete(c, key).cache, key, now).value == None
  {
  }

  lemma ClearThenGetMisses<V>(c: Cache<V>, key: string, now: int)
    requires Valid(c)
    ensures Get(Clear(c), key, now).value == None
  {
  }

  /** The sweep never changes what a `get` at the same instant returns. */
  lemma CleanupInvisibleToGet<V>(c: Cache<V>, now: int, key: string)
    requires Valid(c)
    ensures Get(Cleanup(c, now), key, now).value == Get(c, key, now).value
  {
  }

  /** One call of the public interface. */
  datatype Op<V> =
    | GetOp(key: string, now: int)
    | SetOp(key: string, value: V, now: int)
    | DeleteOp(key: string)
    | ClearOp
    | CleanupOp(now: int)

  function Apply<V>(c: Cache<V>, op: Op<V>, sizeOf: V -> nat): (r: Cache<V>)
    requires Valid(c)
    ensures Valid(r)
  {
    match op
    case GetOp(k, now) => Get(c, k, now).cache
    case SetOp(k, v, now) => Set(c, k, v, now, sizeOf)
    case DeleteOp(k) => Delete(c, k).cache
    case ClearOp => Clear(c)
    case CleanupOp(now) => Cleanup(c, now)
  }

  /** Any sequence of calls, from any reachable cache, ends in a cache whose
      `size` is the sum of its entries' sizes and whose `itemCount` is the
      number of its entries. */
  function Run<V>(c: Cache<V>, ops: seq<Op<V>>, sizeOf: V -> nat): (r: Cache<V>)
    requires Valid(c)
    ensures Valid(r)
    ensures r.stats.itemCount == |r.entries|
    ensures r.stats.size == SumSizes(r.order, r.entries)
    decreases |ops|
  {
    if |ops| == 0 then
      StatsMatchEntries(c);
      c
    else
      Run(Apply(c, ops[0], sizeOf), ops[1..], sizeOf)
  }

  /** Wherever the chosen key is not the empty string, the eviction as
      written and the corrected one agree. */
  lemma EvictLruAgreesOffEmptyKey<V>(c: Cache<V>)
    requires Valid(c)
    requires |c.order| > 0 ==> c.order[OldestIndex(c).value] != ""
    ensures EvictLruAsWritten(c) == EvictLru(c)
  {
  }

  /** A cache holding one 10-byte entry under the empty key, with a
      5-byte budget. */
  function StuckCache(): (c: Cache<int>)
    ensures Valid(c)
  {
    var c := Cache(map["" := Entry(0, 100, 10, 0, 0)], [""], Stats(0, 0, 0, 10, 5, 1), Config(1000, 5, 60000));
    assert SumSizes(c.order, c.entries) == 10;
    c
  }

  /** The eviction loop of `set` as written never ends on `StuckCache`:
      the loop guard holds (the cache is over budget and non-empty) and the
      loop body leaves the cache exactly as it found it, so the guard holds
      again. The corrected eviction empties the cache in one step. */
  lemma EmptyKeyStallsEviction()
    ensures var c := StuckCache();
            && c.stats.size + 0 > c.config.maxSize && |c.entries| > 0
            && EvictLruAsWritten(c) == c
            && EvictLru(c).entries == map[]
  {
    var c := StuckCache();
    assert OldestIndex(c) == Some(0);
  }
}

=== FILE: list_sections.dfy ===
/** The `list_sections` tool of `src/mastra/tools/list-sections.ts`: the
    parsed llms.txt index, each section given a URL rebuilt from its path,
    cached under one key in the index cache. */
module ListSectionsTool {
  import opened Wrappers
  import opened Text
  import opened CacheManager
  import opened LlmsTxt
  import opened Tools

  /** The one key the index is cached under. */
  const IndexKey: string := "docs-index"

  datatype Listed = Listed(title: string, path: string, url: string)

  datatype Listing = Listing(sections: seq<Listed>, totalSections: nat)

  /** The tool's result for the parsed sections: title and path kept, the
      URL rebuilt as the origin followed by the path, and the count. */
  function BuildListing(secs: seq<DocSection>): (r: Listing)
    ensures |r.sections| == |secs| && r.totalSections == |secs|
    ensures forall i :: 0 <= i < |secs| ==>
              && r.sections[i].title == secs[i].title
              && r.sections[i].path == secs[i].path
              && StartsWith(r.sections[i].url, DocsOrigin)
              && r.sections[i].url[|DocsOrigin|..] == secs[i].path
  {
    Listing(seq(|secs|, i requires 0 <= i < |secs| => Listed(secs[i].title, secs[i].path, DocsOrigin + secs[i].path)), |secs|)
  }

  /** The index cache as the module creates it: empty, one-hour lifetime,
      10 MiB budget, one-minute sweep interval. */
  function NewIndexCache(): (c: Cache<Listing>)
    ensures Valid(c) && c.entries == map[]
    ensures c.config.ttl == 3600000 && c.config.maxSize == 10485760 && c.config.checkInterval == 60000
  {
    New(IndexCacheTtl, IndexCacheMaxSize, None)
  }

  /** `execute()`: `llmsTxt` is what `fetchLlmsTxt` delivers, the raw index
      text or the error it throws. */
  function ListSections(c: Cache<Listing>, getNow: int, setNow: int, llmsTxt: Result<string, string>, sizeOf: Listing -> nat): (r: Through<Listing>)
    requires Valid(c)
    ensures Valid(r.cache)
    ensures !r.fetched <==> IndexKey in c.entries && getNow <= c.entries[IndexKey].expiresAt
    ensures !r.fetched ==> r.result == Success(c.entries[IndexKey].value)
    ensures r.fetched && llmsTxt.Success? ==>
              && r.result == Success(BuildListing(ParseLlmsTxt(llmsTxt.value)))
              && IndexKey in r.cache.entries
              && r.cache.entries[IndexKey].value == r.result.value
    ensures r.fetched && llmsTxt.Failure? ==> r.result == Failure(llmsTxt.error) && IndexKey !in r.cache.entries
  {
    CacheThrough(c, IndexKey, getNow, setNow, llmsTxt.MapSuccess(raw => BuildListing(ParseLlmsTxt(raw))), sizeOf)
  }

  /** A listed URL gives back the URL of the llms.txt link it came from,
      when that link points under the origin, carries no surrounding white
      space and does not end in a slash. */
  lemma ListedUrlIsLinkUrl(rest: string)
    requires |rest| > 0 && rest[|rest| - 1] != '/' && !IsSpace(rest[|rest| - 1])
    ensures var u := DocsOrigin + rest;
            DocsOrigin + PathOf(u) == Trim(u)
  {
    var u := DocsOrigin + rest;
    PathOfOriginUrl(rest);
    assert u[0] == 'h' && u[|u| - 1] == rest[|rest| - 1];
    TrimOfTrimmed(u);
  }

  /** A link that ends in a slash is listed with that one slash dropped. */
  lemma ListedUrlDropsTrailingSlash(rest: string)
    requires |rest| > 0 && rest[|rest| - 1] == '/'
    ensures DocsOrigin + PathOf(DocsOrigin + rest) + "/" == DocsOrigin + rest
  {
    PathOfOriginUrl(rest);
  }

  /** Within the hour after a successful listing was stored, the tool
      answers from the cache with the same listing and does not fetch. */
  lemma ListingServedFromCache(c: Cache<Listing>, t0: int, t1: int, raw: string, t2: int, llmsTxt2: Result<string, string>, sizeOf: Listing -> nat)
    requires Valid(c)
    requires !(IndexKey in c.entries && t0 <= c.entries[IndexKey].expiresAt)
    requires t2 <= t1 + c.config.ttl
    ensures var first := ListSections(c, t0, t1, Success(raw), sizeOf);
            var second := ListSections(first.cache, t2, t2, llmsTxt2, sizeOf);
            !second.fetched && second.result == first.result
  {
  }
}

=== FILE: llms_txt.dfy ===
/** `parseLlmsTxt` of `src/mastra/lib/llms-txt.ts`: split the llms.txt
    index into lines, keep the lines that begin like a markdown list link
    `- [title](http(s)://...)`, and turn each into a `{title, path, url}`
    record.

    The link pattern `^-\s*\[(.+?)\]\((https?:\/\/[^)]+)\)` is modelled
    twice: `MatchLink` scans the line the way the backtracking matcher
    explores it, and `IsMatch` states declaratively what the first match
    is. `MatchLinkIff` proves they agree. */
module LlmsTxt {
  import opened Wrappers
  import opened Text
  import opened Seqs

  /** The documentation origin stripped from URLs to form site paths. */
  const DocsOrigin: string := "https://v2.tauri.app/"

  /** `DocSection` of llms-txt.ts. */
  datatype DocSection = DocSection(title: string, path: string, url: string)

  // ---------------------------------------------------------------------
  // Lines: raw.split(/\r?\n/)
  // ---------------------------------------------------------------------

  function CountChar(s: string, c: char): nat {
    if |s| == 0 then 0 else (if s[0] == c then 1 else 0) + CountChar(s[1..], c)
  }

  /** Index of the first newline of `s`. */
  function FirstNewline(s: string): (i: nat)
    requires '\n' in s
    ensures i < |s| && s[i] == '\n' && '\n' !in s[..i]
  {
    if s[0] == '\n' then 0
    else
      var j := FirstNewline(s[1..]);
      assert s[..j + 1] == [s[0]] + s[1..][..j];
      j + 1
  }

  /** One trailing carriage return removed, as the `\r?` of the
      separator swallows it. */
  function DropCr(p: string): string {
    if |p| > 0 && p[|p| - 1] == '\r' then p[..|p| - 1] else p
  }

  lemma {:induction false} CountSplit(s: string, i: nat)
    requires i < |s| && s[i] == '\n' && '\n' !in s[..i]
    ensures CountChar(s, '\n') == 1 + CountChar(s[i + 1..], '\n')
    decreases i
  {
    if i > 0 {
      assert s[1..][..i - 1] == s[1..i];
      assert s[1..][i..] == s[i + 1..];
      CountSplit(s[1..], i - 1);
    }
  }

  lemma {:induction false} CountAbsent(s: string)
    requires '\n' !in s
    ensures CountChar(s, '\n') == 0
    decreases |s|
  {
    if |s| > 0 {
      CountAbsent(s[1..]);
    }
  }

  /** `raw.split(/\r?\n/)`: the pieces between newlines, each with the
      carriage return just before its newline removed. The last piece is
      not followed by a newline and keeps any final carriage return. */
  function Lines(raw: string): (ls: seq<string>)
    ensures |ls| == CountChar(raw, '\n') + 1
    ensures forall i :: 0 <= i < |ls| ==> '\n' !in ls[i]
    decreases |raw|
  {
    if '\n' !in raw then
      CountAbsent(raw);
      [raw]
    else
      var i := FirstNewline(raw);
      CountSplit(raw, i);
      [DropCr(raw[..i])] + Lines(raw[i + 1..])
  }

  function JoinLines(ls: seq<string>): string {
    if |ls| == 0 then "" else if |ls| == 1 then ls[0] else ls[0] + "\n" + JoinLines(ls[1..])
  }

  /** `raw` with every carriage-return/line-feed pair turned into a lone
      line feed, scanning from the left. */
  function NormalizeNewlines(s: string): string
    decreases |s|
  {
    if |s| == 0 then ""
    else if |s| >= 2 && s[0] == '\r' && s[1] == '\n' then "\n" + NormalizeNewlines(s[2..])
    else [s[0]] + NormalizeNewlines(s[1..])
  }

  lemma {:induction false} NormalizeAtNewline(p: string, q: string)
    requires '\n' !in p
    ensures NormalizeNewlines(p + "\n" + q) == DropCr(p) + "\n" + NormalizeNewlines(q)
    decreases |p|
  {
    var s := p + "\n" + q;
    if |p| == 0 {
      assert s == "\n" + q;
      assert s[1..] == q;
    } else if |p| == 1 {
      assert s[1..] == "\n" + q;
      if p[0] == '\r' {
        assert s[2..] == q;
      } else {
        assert s[1..][1..] == q;
      }
    } else {
      assert s[1..] == p[1..] + "\n" + q;
      NormalizeAtNewline(p[1..], q);
      assert DropCr(p) == [p[0]] + DropCr(p[1..]);
    }
  }

  lemma {:induction false} NormalizeNoNewline(p: string)
    requires '\n' !in p
    ensures NormalizeNewlines(p) == p
    decreases |p|
  {
    if |p| > 0 {
      NormalizeNoNewline(p[1..]);
      assert p == [p[0]] + p[1..];
    }
  }

  /** Splitting loses exactly the carriage returns of CRLF pairs: the lines
      joined with line feeds give back the input with CRLF normalised. */
  lemma {:induction false} LinesRoundTrip(raw: string)
    ensures JoinLines(Lines(raw)) == NormalizeNewlines(raw)
    decreases |raw|
  {
    if '\n' !in raw {
      NormalizeNoNewline(raw);
    } else {
      var i := FirstNewline(raw);
      var rest := raw[i + 1..];
      LinesRoundTrip(rest);
      assert raw == raw[..i] + "\n" + rest;
      NormalizeAtNewline(raw[..i], rest);
      assert Lines(raw) == [DropCr(raw[..i])] + Lines(rest);
      JoinCons(DropCr(raw[..i]), Lines(rest));
    }
  }

  lemma JoinCons(h: string, t: seq<string>)
    requires |t| > 0
    ensures JoinLines([h] + t) == h + "\n" + JoinLines(t)
  {
    assert ([h] + t)[1..] == t;
  }

  // ---------------------------------------------------------------------
  // The link pattern, declaratively
  // ---------------------------------------------------------------------

  predicate NoTerminator(s: string) {
    forall i :: 0 <= i < |s| ==> !IsLineTerminator(s[i])
  }

  predicate NoParen(s: string) {
    forall i :: 0 <= i < |s| ==> s[i] != ')'
  }

  /** A capture of `https?:\/\/[^)]+`: a scheme, then at least one
      character, none of them a closing parenthesis. */
  predicate UrlShape(u: string) {
    && ((StartsWith(u, "https://") && |u| > 8) || (StartsWith(u, "http://") && |u| > 7))
    && NoParen(u)
  }

  /** `y`, the text after `](`, starts with the URL capture `u` and the
      closing `)`. */
  ghost predicate UrlSpec(y: string, u: string) {
    UrlShape(u) && |u| < |y| && y[..|u|] == u && y[|u|] == ')'
  }

  /** In `x`, the text at `m` is `](` followed by the URL capture `u` and
      `)`. */
  ghost predicate UrlFollows(x: string, m: int, u: string) {
    0 <= m <= |x| && StartsWith(x[m..], "](") && UrlSpec(x[m + 2..], u)
  }

  /** The first match of the link pattern on `line`: `-`, white space up to
      the `[` at `k`, the title capture `t`, `](`, the URL capture `u` and
      `)`, where `t` is the shortest title after which the rest matches. */
  ghost predicate IsMatch(line: string, k: int, t: string, u: string) {
    && 1 <= k < |line| && line[0] == '-' && line[k] == '['
    && AllSpace(line[1..k])
    && var x := line[k + 1..];
       && 1 <= |t| && StartsWith(x, t) && NoTerminator(t)
       && UrlFollows(x, |t|, u)
       && forall m, u' :: 1 <= m < |t| ==> !UrlFollows(x, m, u')
  }

  // ---------------------------------------------------------------------
  // The link pattern, as the matcher scans it
  // ---------------------------------------------------------------------

  /** First index at or after `i` that does not hold white space. */
  function SpaceEnd(line: string, i: nat): (k: nat)
    requires i <= |line|
    ensures i <= k <= |line|
    ensures AllSpace(line[i..k])
    ensures k < |line| ==> !IsSpace(line[k])
    decreases |line| - i
  {
    if i < |line| && IsSpace(line[i]) then
      var k := SpaceEnd(line, i + 1);
      assert line[i..k] == [line[i]] + line[i + 1..k];
      k
    else i
  }

  /** Length of the run of characters other than `)` that starts `s`. */
  function ParenFree(s: string): (n: nat)
    ensures n <= |s| && NoParen(s[..n])
    ensures n < |s| ==> s[n] == ')'
  {
    if |s| == 0 || s[0] == ')' then 0
    else
      var m := ParenFree(s[1..]);
      assert s[..m + 1] == [s[0]] + s[1..][..m];
      m + 1
  }

  /** Length of the `https://` or `http://` that starts `s`; 0 when
      neither does. The greedy `s?` tries the longer scheme first. */
  function SchemeLength(s: string): (n: nat)
    ensures n == 8 <==> StartsWith(s, "https://")
    ensures n == 7 <==> StartsWith(s, "http://") && !StartsWith(s, "https://")
    ensures n == 0 || n == 7 || n == 8
  {
    if StartsWith(s, "https://") then 8 else if StartsWith(s, "http://") then 7 else 0
  }

  /** Two strings that agree on their first eight characters have the same
      scheme. */
  lemma SchemeOfPrefix(y: string, u: string)
    requires 8 <= |u| <= |y| && y[..|u|] == u
    ensures SchemeLength(y) == SchemeLength(u)
  {
    assert y[..8] == y[..|u|][..8] == u[..8];
    assert y[..7] == y[..|u|][..7] == u[..7];
  }

  /** A URL capture has a scheme and something after it. */
  lemma SchemeOfShape(u: string)
    requires UrlShape(u)
    ensures 0 < SchemeLength(u) < |u|
  {
    assert |u| >= 8;
    assert u[..7][4] == u[4] && u[..8][4] == u[4];
  }

  /** The scheme, then a run free of `)`, form a URL capture. */
  lemma ShapeOfScan(y: string, j: nat)
    requires 0 < SchemeLength(y) < j <= |y|
    requires NoParen(y[SchemeLength(y)..j])
    ensures UrlShape(y[..j])
  {
    var n := SchemeLength(y);
    var u := y[..j];
    assert u[..n] == y[..n];
    assert forall i :: 0 <= i < n ==> u[i] == y[..n][i];
    assert forall i :: n <= i < j ==> u[i] == y[n..j][i - n];
    if n == 8 {
      assert StartsWith(u, "https://");
    } else {
      assert StartsWith(u, "http://");
    }
  }

  /** `https?:\/\/[^)]+\)` at the start of `y`: the greedy `s?` and the
      greedy run leave exactly one way to match. */
  function ScanUrl(y: string): (r: Option<string>)
    ensures r.Some? ==> UrlShape(r.value)
  {
    var n := SchemeLength(y);
    if n == 0 then None
    else
      var j := n + ParenFree(y[n..]);
      if j == n || j == |y| then None
      else
        assert y[n..j] == y[n..][..j - n];
        ShapeOfScan(y, j);
        Some(y[..j])
  }

  /** Every URL capture the pattern describes is found by the scanner. */
  lemma ScanUrlComplete(y: string, u: string)
    requires UrlSpec(y, u)
    ensures ScanUrl(y) == Some(u)
  {
    SchemeOfPrefix(y, u);
    SchemeOfShape(u);
    var n := SchemeLength(y);
    var q := |u| - n;
    assert y[n..][..q] == u[n..];
    assert forall i :: 0 <= i < q ==> u[n..][i] == u[n + i];
    assert y[n..][q] == ')';
    ParenFreeStopsAt(y[n..], q);
    assert y[..n + q] == u;
  }

  /** The run without `)` ends at the first `)`. */
  lemma {:induction false} ParenFreeStopsAt(s: string, q: nat)
    requires q < |s| && s[q] == ')' && NoParen(s[..q])
    ensures ParenFree(s) == q
    decreases q
  {
    if q > 0 {
      assert s[..q][0] == s[0];
      assert s[1..][..q - 1] == s[..q][1..];
      ParenFreeStopsAt(s[1..], q - 1);
    }
  }

  /** Whatever the scanner finds is a URL capture the pattern describes. */
  lemma ScanUrlSound(y: string, u: string)
    requires ScanUrl(y) == Some(u)
    ensures UrlSpec(y, u)
  {
    var n := SchemeLength(y);
    var j := n + ParenFree(y[n..]);
    assert u == y[..j] && |u| == j && j < |y|;
    assert y[j] == y[n..][j - n];
  }

  lemma ScanUrlIff(y: string, u: string)
    ensures UrlSpec(y, u) <==> ScanUrl(y) == Some(u)
  {
    if UrlSpec(y, u) {
      ScanUrlComplete(y, u);
    }
    if ScanUrl(y) == Some(u) {
      ScanUrlSound(y, u);
    }
  }

  /** The URL capture that follows a title of length `n` in `x`, if the
      rest of the pattern matches there. */
  function UrlAfter(x: string, n: nat): (r: Option<string>)
    requires n <= |x|
    ensures r.Some? ==> UrlShape(r.value)
  {
    if StartsWith(x[n..], "](") then ScanUrl(x[n + 2..]) else None
  }

  /** The lazy `(.+?)`: try title lengths `n`, `n + 1`, ... and stop at the
      first that the rest of the pattern accepts, or at the first line
      terminator, which `.` cannot cross. */
  function FindTitle(x: string, n: nat): (r: Option<(string, string)>)
    requires 1 <= n <= |x|
    requires NoTerminator(x[..n - 1])
    requires forall m :: 1 <= m < n ==> UrlAfter(x, m).None?
    ensures r.Some? ==>
              && n <= |r.value.0| <= |x| && r.value.0 == x[..|r.value.0|]
              && NoTerminator(r.value.0)
              && UrlAfter(x, |r.value.0|) == Some(r.value.1)
              && forall m :: 1 <= m < |r.value.0| ==> UrlAfter(x, m).None?
    ensures r.None? ==> forall m :: 1 <= m <= |x| && NoTerminator(x[..m]) ==> UrlAfter(x, m).None?
    decreases |x| - n
  {
    if IsLineTerminator(x[n - 1]) then
      assert forall m :: n <= m <= |x| ==> x[..m][n - 1] == x[n - 1];
      None
    else
      assert NoTerminator(x[..n]) by {
        assert forall i :: 0 <= i < n - 1 ==> x[..n][i] == x[..n - 1][i];
      }
      match UrlAfter(x, n)
      case Some(u) => Some((x[..n], u))
      case None =>
        if n == |x| then None else FindTitle(x, n + 1)
  }

  /** The link pattern applied to one line: the raw title and URL
      captures of the first match, if any. */
  function MatchLink(line: string): (r: Option<(string, string)>)
    ensures r.Some? ==>
              && |line| > 0 && line[0] == '-'
              && var k := SpaceEnd(line, 1);
                 && k < |line| - 1 && line[k] == '['
                 && FindTitle(line[k + 1..], 1) == r
  {
    if |line| == 0 || line[0] != '-' then None
    else
      var k := SpaceEnd(line, 1);
      if k == |line| || line[k] != '[' || k + 1 == |line| then None
      else FindTitle(line[k + 1..], 1)
  }

  /** The white space before `[` is determined by the line. */
  lemma SpaceEndUnique(line: string, k: int)
    requires 1 <= k < |line| && line[k] == '[' && AllSpace(line[1..k])
    ensures SpaceEnd(line, 1) == k
  {
    var e := SpaceEnd(line, 1);
    assert !IsSpace(line[k]);
    assert forall i :: 1 <= i < k ==> IsSpace(line[1..k][i - 1]) && line[1..k][i - 1] == line[i];
    assert forall i :: 1 <= i < e ==> IsSpace(line[1..e][i - 1]) && line[1..e][i - 1] == line[i];
  }

  /** The URL after a title length, as scanned and as specified. */
  lemma UrlAfterIff(x: string, m: nat, u: string)
    requires m <= |x|
    ensures UrlFollows(x, m, u) <==> UrlAfter(x, m) == Some(u)
  {
    if StartsWith(x[m..], "](") {
      ScanUrlIff(x[m + 2..], u);
    }
  }

  /** The lazy title search finds a given title when the rest of the
      pattern matches after it and after no shorter title. */
  lemma FindTitleFinds(x: string, t: string, u: string)
    requires 1 <= |t| <= |x| && x[..|t|] == t && NoTerminator(t)
    requires UrlAfter(x, |t|) == Some(u)
    requires forall m :: 1 <= m < |t| ==> UrlAfter(x, m).None?
    ensures FindTitle(x, 1) == Some((t, u))
  {
    var r := FindTitle(x, 1);
    assert r.Some?;
    assert |r.value.0| == |t|;
  }

  /** Every first match described by `IsMatch` is found by the scanner. */
  lemma MatchLinkComplete(line: string, k: int, t: string, u: string)
    requires IsMatch(line, k, t, u)
    ensures MatchLink(line) == Some((t, u)) && k == SpaceEnd(line, 1)
  {
    SpaceEndUnique(line, k);
    var x := line[k + 1..];
    UrlAfterIff(x, |t|, u);
    EarlierTitlesFail(x, t);
    assert x[..|t|] == t;
    FindTitleFinds(x, t, u);
  }

  /** Under `IsMatch`'s minimality, the scanner rejects every shorter
      title. */
  lemma EarlierTitlesFail(x: string, t: string)
    requires |t| <= |x|
    requires forall m, u' :: 1 <= m < |t| ==> !UrlFollows(x, m, u')
    ensures forall m :: 1 <= m < |t| ==> UrlAfter(x, m).None?
  {
    forall m | 1 <= m < |t|
      ensures UrlAfter(x, m).None?
    {
      if UrlAfter(x, m).Some? {
        UrlAfterIff(x, m, UrlAfter(x, m).value);
      }
    }
  }

  /** Whatever the scanner finds is the first match `IsMatch` describes. */
  lemma MatchLinkSound(line: string)
    ensures MatchLink(line).Some? ==>
              IsMatch(line, SpaceEnd(line, 1), MatchLink(line).value.0, MatchLink(line).value.1)
  {
    if MatchLink(line).Some? {
      var m := MatchLink(line).value;
      FindTitleSound(line, SpaceEnd(line, 1), m.0, m.1);
    }
  }

  /** A title found after the `[` at `k` gives the first match. */
  lemma FindTitleSound(line: string, k: nat, t: string, u: string)
    requires 1 <= k < |line| - 1 && line[0] == '-' && line[k] == '[' && AllSpace(line[1..k])
    requires FindTitle(line[k + 1..], 1) == Some((t, u))
    ensures IsMatch(line, k, t, u)
  {
    var x := line[k + 1..];
    UrlAfterIff(x, |t|, u);
    NoEarlierUrl(x, |t|);
  }

  /** Title lengths the scanner rejected admit no URL capture at all. */
  lemma NoEarlierUrl(x: string, n: nat)
    requires n <= |x|
    requires forall m :: 1 <= m < n ==> UrlAfter(x, m).None?
    ensures forall m, u' :: 1 <= m < n ==> !UrlFollows(x, m, u')
  {
    forall m, u' | 1 <= m < n
      ensures !UrlFollows(x, m, u')
    {
      UrlAfterIff(x, m, u');
    }
  }

  /** The scanner and the declarative description of the first match
      agree, in both directions. */
  lemma MatchLinkIff(line: string, k: int, t: string, u: string)
    ensures IsMatch(line, k, t, u) <==> MatchLink(line) == Some((t, u)) && k == SpaceEnd(line, 1)
  {
    if IsMatch(line, k, t, u) {
      MatchLinkComplete(line, k, t, u);
    }
    if MatchLink(line) == Some((t, u)) && k == SpaceEnd(line, 1) {
      MatchLinkSound(line);
    }
  }

  // ---------------------------------------------------------------------
  // From a match to a section
  // ---------------------------------------------------------------------

  /** The site path of a URL capture: the first occurrence of the origin
      removed, then one trailing slash. */
  function PathOf(u: string): (r: string)
    ensures !Contains(u, DocsOrigin) ==> r == StripTrailingSlash(u)
    ensures Contains(u, DocsOrigin) ==>
              exists i :: && OccursAt(u, DocsOrigin, i)
                          && (forall j :: 0 <= j < i ==> !OccursAt(u, DocsOrigin, j))
                          && r == StripTrailingSlash(u[..i] + u[i + |DocsOrigin|..])
  {
    var v := ReplaceFirst(u, DocsOrigin, "");
    assert forall i :: 0 <= i <= |u| ==> u[..i] + "" == u[..i];
    StripTrailingSlash(v)
  }

  /** A URL under the origin yields the rest of the URL, less one trailing
      slash. */
  lemma PathOfOriginUrl(rest: string)
    ensures PathOf(DocsOrigin + rest) == StripTrailingSlash(rest)
  {
    assert (DocsOrigin + rest)[..|DocsOrigin|] == DocsOrigin;
    assert (DocsOrigin + rest)[|DocsOrigin|..] == rest;
  }

  /** A URL that does not mention the origin keeps all of its text except
      one trailing slash. */
  lemma PathOfForeignUrl(u: string)
    requires !Contains(u, DocsOrigin)
    ensures PathOf(u) == StripTrailingSlash(u)
  {
  }

  /** What every parsed section looks like: the URL begins with a scheme
      and holds no `)`; the title has no surrounding white space and no
      line terminator. */
  predicate WellShaped(s: DocSection) {
    && (StartsWith(s.url, "http://") || StartsWith(s.url, "https://"))
    && NoParen(s.url)
    && NoTerminator(s.title)
    && (|s.title| > 0 ==> !IsSpace(s.title[0]) && !IsSpace(s.title[|s.title| - 1]))
  }

  /** `trimEnd` keeps every character up to a non-space one. */
  lemma {:induction false} TrimEndKeeps(s: string, n: nat)
    requires 0 < n <= |s| && !IsSpace(s[n - 1])
    ensures n <= |TrimEnd(s)|
    decreases |s|
  {
    if IsSpace(s[|s| - 1]) {
      assert s[..|s| - 1][n - 1] == s[n - 1];
      TrimEndKeeps(s[..|s| - 1], n);
    }
  }

  /** `trim` keeps a prefix that starts and ends with non-space
      characters. */
  lemma TrimKeepsPrefix(u: string, n: nat)
    requires 0 < n <= |u| && !IsSpace(u[0]) && !IsSpace(u[n - 1])
    ensures TrimOffset(u) == 0 && n <= |Trim(u)| && Trim(u) == u[..|Trim(u)|]
  {
    assert TrimStart(u) == u;
    TrimEndKeeps(u, n);
  }

  lemma TrimmedUrlKeepsScheme(u: string)
    requires UrlShape(u)
    ensures StartsWith(Trim(u), "http://") || StartsWith(Trim(u), "https://")
    ensures NoParen(Trim(u))
  {
    var n := if StartsWith(u, "https://") then 8 else 7;
    assert u[0] == 'h' && u[n - 1] == '/';
    TrimKeepsPrefix(u, n);
    var r := Trim(u);
    assert r[..n] == u[..n];
    assert forall i :: 0 <= i < |r| ==> r[i] == u[i];
  }

  lemma TrimmedTitleClean(t: string)
    requires NoTerminator(t)
    ensures NoTerminator(Trim(t))
  {
    var r := Trim(t);
    var off := TrimOffset(t);
    assert r == t[off..off + |r|];
    assert forall i :: 0 <= i < |r| ==> r[i] == t[off + i];
  }

  /** One line's contribution: the trimmed title, the path derived from the
      untrimmed URL capture, and the trimmed URL. Whatever it yields is well
      shaped. */
  function ParseLine(line: string): (r: Option<DocSection>)
    ensures r.Some? ==> WellShaped(r.value)
  {
    match MatchLink(line)
    case None => None
    case Some((t, u)) =>
      TrimmedUrlKeepsScheme(u);
      TrimmedTitleClean(t);
      Some(DocSection(Trim(t), PathOf(u), Trim(u)))
  }

  /** The parse of a sequence of lines: one section per matching line, in
      line order. */
  function ParseLines(ls: seq<string>): (r: seq<DocSection>)
    ensures |r| <= |ls|
    ensures forall i :: 0 <= i < |r| ==> WellShaped(r[i])
  {
    FilterMapAll(ParseLine, ls, WellShaped);
    FilterMap(ParseLine, ls)
  }

  /** `parseLlmsTxt(raw)`. */
  function ParseLlmsTxt(raw: string): (r: seq<DocSection>)
    ensures |r| <= CountChar(raw, '\n') + 1
    ensures forall i :: 0 <= i < |r| ==> WellShaped(r[i])
  {
    ParseLines(Lines(raw))
  }

  /** Parsing distributes over concatenation of line sequences, so the
      output keeps line order. */
  lemma ParseLinesAppend(a: seq<string>, b: seq<string>)
    ensures ParseLines(a + b) == ParseLines(a) + ParseLines(b)
  {
    FilterMapAppend(ParseLine, a, b);
  }

  /** A single line contributes its section if it matches and nothing
      otherwise. */
  lemma ParseOneLine(line: string)
    ensures ParseLines([line]) == match ParseLine(line) case Some(s) => [s] case None => []
  {
    assert [line][1..] == [];
  }

  /** Every section comes from some line, and every matching line gives a
      section. */
  lemma ParseLinesMembers(ls: seq<string>, s: DocSection)
    ensures s in ParseLines(ls) <==> exists j :: 0 <= j < |ls| && ParseLine(ls[j]) == Some(s)
  {
    FilterMapMembers(ParseLine, ls, s);
  }

  /** The section a line yields, declaratively: the trimmed title, the
      path and the trimmed URL of the first match of the link pattern. */
  ghost predicate SectionOf(line: string, s: DocSection) {
    exists k, t, u :: IsMatch(line, k, t, u) && s == DocSection(Trim(t), PathOf(u), Trim(u))
  }

  /** A line parses to a section exactly when that section is built from
      the captures of the line's first match. */
  lemma ParseLineIff(line: string, s: DocSection)
    ensures ParseLine(line) == Some(s) <==> SectionOf(line, s)
  {
    if ParseLine(line) == Some(s) {
      var m := MatchLink(line).value;
      MatchLinkSound(line);
      assert IsMatch(line, SpaceEnd(line, 1), m.0, m.1);
    }
    if SectionOf(line, s) {
      var k, t, u :| IsMatch(line, k, t, u) && s == DocSection(Trim(t), PathOf(u), Trim(u));
      MatchLinkComplete(line, k, t, u);
    }
  }

  /** A section is parsed from a sequence of lines exactly when some line
      yields it. */
  lemma ParseLinesSections(ls: seq<string>, s: DocSection)
    ensures s in ParseLines(ls) <==> exists line :: line in ls && SectionOf(line, s)
  {
    ParseLinesMembers(ls, s);
    if s in ParseLines(ls) {
      var j :| 0 <= j < |ls| && ParseLine(ls[j]) == Some(s);
      ParseLineIff(ls[j], s);
    }
    if exists line :: line in ls && SectionOf(line, s) {
      var line :| line in ls && SectionOf(line, s);
      var j :| 0 <= j < |ls| && ls[j] == line;
      ParseLineIff(line, s);
    }
  }

  /** `parseLlmsTxt` end to end: a section is in the result exactly when
      some line of the input yields it. */
  lemma ParseLlmsTxtMembers(raw: string, s: DocSection)
    ensures s in ParseLlmsTxt(raw) <==> exists line :: line in Lines(raw) && SectionOf(line, s)
  {
    ParseLinesSections(Lines(raw), s);
  }
}

=== FILE: memo.dfy ===
/** The TTL memoiser of `src/mastra/lib/cache.ts`: a module-level map from
    key to `{data, expires}`, read through `getCached` and emptied through
    `clearCache`. The store is passed and returned explicitly; the fetcher
    is replaced by the outcome it would produce, consulted only on a miss,
    and the result records whether it was consulted. */
module Memo {
  import opened Wrappers

  datatype MemoEntry<T> = MemoEntry(data: T, expires: int)

  type Store<T> = map<string, MemoEntry<T>>

  /** The outcome of `getCached`: the store afterwards, the promise's
      resolution (`Failure` for a rejected fetch), and whether the fetcher
      ran. */
  datatype Cached<T> = Cached(store: Store<T>, result: Result<T, string>, fetched: bool)

  /** An entry is fresh strictly before its `expires` instant. */
  predicate IsFresh<T>(store: Store<T>, key: string, now: int) {
    key in store && store[key].expires > now
  }

  /** `getCached(key, ttl, fetcher)` with the clock reading `now`, taken
      before the fetch starts. */
  function GetCached<T>(store: Store<T>, key: string, ttl: int, now: int, fetch: Result<T, string>): (r: Cached<T>)
    ensures !r.fetched <==> IsFresh(store, key, now)
    ensures !r.fetched ==> r.result == Success(store[key].data) && r.store == store
    ensures r.fetched ==> r.result == fetch
    ensures r.fetched && fetch.Success? ==> r.store == store[key := MemoEntry(fetch.value, now + ttl)]
    ensures r.fetched && fetch.Failure? ==> r.store == store
  {
    if key in store && store[key].expires > now then
      Cached(store, Success(store[key].data), false)
    else
      match fetch
      case Success(d) => Cached(store[key := MemoEntry(d, now + ttl)], Success(d), true)
      case Failure(e) => Cached(store, Failure(e), true)
  }

  /** `clearCache(key?)`: a non-empty key removes just that entry; no key,
      or the empty key (which JavaScript treats as false), empties the whole
      store. */
  function ClearCache<T>(store: Store<T>, key: Option<string>): (r: Store<T>)
    ensures key.Some? && key.value != "" ==> r.Keys == store.Keys - {key.value}
    ensures key.Some? && key.value != "" ==> forall k :: k in r ==> r[k] == store[k]
    ensures key.None? || key.value == "" ==> r == map[]
  {
    match key
    case Some(k) =>
      if k != "" then store - {k} else map[]
    case None => map[]
  }

  /** After a miss at `now` whose fetch succeeded, the fetched value is
      served, without fetching again, by every call strictly before
      `now + ttl`; from that instant on the fetcher runs again. */
  lemma RefetchOnlyAfterTtl<T>(store: Store<T>, key: string, ttl: int, now: int, d: T, later: int, fetch2: Result<T, string>)
    requires !IsFresh(store, key, now)
    ensures var first := GetCached(store, key, ttl, now, Success(d));
            var second := GetCached(first.store, key, ttl, later, fetch2);
            && (later < now + ttl ==> !second.fetched && second.result == Success(d))
            && (later >= now + ttl ==> second.fetched && second.result == fetch2)
  {
  }

  /** A failed fetch on a key with no fresh entry leaves the store as it
      was, so the next call, at the same instant or later, fetches again. */
  lemma FailureStoresNothing<T>(store: Store<T>, key: string, ttl: int, now: int, err: string, later: int, fetch2: Result<T, string>)
    requires !IsFresh(store, key, now)
    requires later >= now
    ensures var first := GetCached(store, key, ttl, now, Failure(err));
            first.store == store && GetCached(first.store, key, ttl, later, fetch2).fetched
  {
  }

  /** Clearing a key forces the next lookup of that key to fetch. */
  lemma ClearForcesFetch<T>(store: Store<T>, key: Option<string>, k: string, ttl: int, now: int, fetch: Result<T, string>)
    requires key.None? || key.value == "" || key.value == k
    ensures GetCached(ClearCache(store, key), k, ttl, now, fetch).fetched
  {
  }
}

=== FILE: page_tools.dfy ===
/** The `get_page` and `get_plugin` tools of `src/mastra/tools/get-page.ts`
    and `src/mastra/tools/get-plugin.ts`: resolve a documentation URL, then
    read it through the page cache under a key that names the tool. The
    page fetcher is a parameter mapping a URL to the fetched page or to the
    error it throws. */
module GetPageTool {
  import opened Wrappers
  import opened Text
  import opened CacheManager
  import opened LlmsTxt
  import opened Tools

  /** What `fetchPageHtml` delivers. */
  datatype FetchedPage = FetchedPage(title: string, html: string, url: string)

  /** `PageContent` (and the identical `PluginContent`) of `types.ts`. */
  datatype PageContent = PageContent(title: string, content: string, url: string)

  function ToContent(p: FetchedPage): (r: PageContent)
    ensures r.title == p.title && r.content == p.html && r.url == p.url
  {
    PageContent(p.title, p.html, p.url)
  }

  /** The page cache as the module creates it: empty, thirty-minute
      lifetime, 50 MiB budget, one-minute sweep interval. */
  function NewPageCache(): (c: Cache<PageContent>)
    ensures Valid(c) && c.entries == map[]
    ensures c.config.ttl == 1800000 && c.config.maxSize == 52428800 && c.config.checkInterval == 60000
  {
    New(PageCacheTtl, PageCacheMaxSize, None)
  }

  // ---------------------------------------------------------------------
  // get_page
  // ---------------------------------------------------------------------

  /** A path that starts with `http` is taken as a full URL; any other path
      has one leading slash dropped and is placed under the origin. */
  function ResolvePageUrl(path: string): (url: string)
    ensures StartsWith(url, "http")
    ensures StartsWith(path, "http") ==> url == path
    ensures !StartsWith(path, "http") ==> StartsWith(url, DocsOrigin) && url[|DocsOrigin|..] == StripLeadingSlash(path)
  {
    if StartsWith(path, "http") then path else DocsOrigin + StripLeadingSlash(path)
  }

  /** Resolving a resolved URL changes nothing. */
  lemma ResolveIdempotent(path: string)
    ensures ResolvePageUrl(ResolvePageUrl(path)) == ResolvePageUrl(path)
  {
  }

  /** A relative path names the same page with or without its leading
      slash. */
  lemma LeadingSlashIgnored(path: string)
    requires !StartsWith(path, "http") && !StartsWith(path, "/")
    ensures ResolvePageUrl("/" + path) == ResolvePageUrl(path)
  {
    assert ("/" + path)[1..] == path;
    assert !StartsWith("/" + path, "http") by {
      assert ("/" + path)[0] == '/';
    }
  }

  function PageKey(url: string): (k: string)
    ensures StartsWith(k, "page:") && k[5..] == url
  {
    "page:" + url
  }

  /** Distinct URLs never share a page key. */
  lemma PageKeyInjective(a: string, b: string)
    ensures PageKey(a) == PageKey(b) <==> a == b
  {
    if PageKey(a) == PageKey(b) {
      assert a == PageKey(a)[5..];
    }
  }

  /** `execute({path})`. */
  function GetPage(c: Cache<PageContent>, path: string, getNow: int, setNow: int, fetch: string -> Result<FetchedPage, string>, sizeOf: PageContent -> nat): (r: Through<PageContent>)
    requires Valid(c)
    ensures Valid(r.cache)
    ensures var key := PageKey(ResolvePageUrl(path));
            && (!r.fetched <==> key in c.entries && getNow <= c.entries[key].expiresAt)
            && (!r.fetched ==> r.result == Success(c.entries[key].value))
            && (r.fetched ==> r.result == fetch(ResolvePageUrl(path)).MapSuccess(ToContent))
            && (r.fetched && r.result.Success? ==> key in r.cache.entries && r.cache.entries[key].value == r.result.value)
  {
    var url := ResolvePageUrl(path);
    CacheThrough(c, PageKey(url), getNow, setNow, fetch(url).MapSuccess(ToContent), sizeOf)
  }

  // ---------------------------------------------------------------------
  // get_plugin
  // ---------------------------------------------------------------------

  /** The site path of a plugin's page: `plugin/` and the name with one
      leading slash dropped. */
  function PluginPath(name: string): (p: string)
    ensures StartsWith(p, "plugin/") && p[7..] == StripLeadingSlash(name)
  {
    "plugin/" + StripLeadingSlash(name)
  }

  function PluginUrl(name: string): (url: string)
    ensures StartsWith(url, DocsOrigin) && url[|DocsOrigin|..] == PluginPath(name)
  {
    DocsOrigin + PluginPath(name)
  }

  function PluginKey(url: string): (k: string)
    ensures StartsWith(k, "plugin:") && k[7..] == url
  {
    "plugin:" + url
  }

  /** The plugin URL is exactly what `get_page` resolves the plugin's path
      to. */
  lemma PluginUrlIsPageUrl(name: string)
    ensures ResolvePageUrl(PluginPath(name)) == PluginUrl(name)
  {
    assert PluginPath(name)[0] == 'p';
  }

  /** `get_page` given `plugin/` and the raw name reaches the plugin's page
      exactly when the name has no leading slash: `get_plugin` drops that
      slash, `get_page` keeps it and asks for `plugin//…`. */
  lemma PageOfPluginName(name: string)
    ensures ResolvePageUrl("plugin/" + name) == PluginUrl(name) <==> !StartsWith(name, "/")
  {
    var path := "plugin/" + name;
    assert path[0] == 'p' && path[1] == 'l';
    assert ResolvePageUrl(path) == DocsOrigin + path;
    if StartsWith(name, "/") {
      assert |PluginUrl(name)| + 1 == |DocsOrigin + path|;
    }
  }

  /** The two tools share the page cache but never each other's keys, so
      the same page fetched through both is cached twice. */
  lemma PluginAndPageKeysDisjoint(a: string, b: string)
    ensures PluginKey(a) != PageKey(b)
  {
    assert PluginKey(a)[1] == 'l' && PageKey(b)[1] == 'a';
  }

  /** `execute({name})` for a name the schema accepts (at least one
      character). */
  function GetPlugin(c: Cache<PageContent>, name: string, getNow: int, setNow: int, fetch: string -> Result<FetchedPage, string>, sizeOf: PageContent -> nat): (r: Through<PageContent>)
    requires |name| >= 1
    requires Valid(c)
    ensures Valid(r.cache)
    ensures var key := PluginKey(PluginUrl(name));
            && (!r.fetched <==> key in c.entries && getNow <= c.entries[key].expiresAt)
            && (!r.fetched ==> r.result == Success(c.entries[key].value))
            && (r.fetched ==> r.result == fetch(PluginUrl(name)).MapSuccess(ToContent))
            && (r.fetched && r.result.Success? ==> key in r.cache.entries && r.cache.entries[key].value == r.result.value)
  {
    var url := PluginUrl(name);
    CacheThrough(c, PluginKey(url), getNow, setNow, fetch(url).MapSuccess(ToContent), sizeOf)
  }

  /** A name with and without a leading slash names the same plugin. */
  lemma PluginLeadingSlashIgnored(name: string)
    requires |name| >= 1 && name[0] != '/'
    ensures PluginUrl("/" + name) == PluginUrl(name)
  {
    assert ("/" + name)[1..] == name;
  }
}

=== FILE: search.dfy ===
/** The keyword search of `src/mastra/tools/search.ts`: the query is
    lowercased and split into terms; every page of every index section is
    scored by the number of terms its lowercased `title path` text contains;
    pages scoring zero are dropped; the rest are sorted by descending score,
    ties broken by title. The title comparison (`localeCompare`) is a
    parameter, required only to be total. */
module Search {
  import opened Wrappers
  import opened Text
  import opened Seqs

  datatype Page = Page(title: string, path: string)

  /** A section of the index as the search walks it: its pages in order. */
  datatype IndexSection = IndexSection(pages: seq<Page>)

  datatype Hit = Hit(title: string, path: string, score: nat)

  /** The terms are the maximal white-space-free runs of the lowercased
      query: it is the terms interleaved with white-space gaps. */
  lemma TermsSplitQuery(query: string)
    ensures Interleave(Gaps(Lower(query)), Terms(query)) == Lower(query)
    ensures forall i :: 0 < i < |Gaps(Lower(query))| - 1 ==> |Gaps(Lower(query))[i]| > 0
  {
    WordsSplit(Lower(query));
  }

  /** The query's terms: the lowercased query cut at white-space runs, empty
      pieces dropped. */
  function Terms(query: string): (ts: seq<string>)
    ensures forall i :: 0 <= i < |ts| ==> |ts[i]| > 0 && NoSpace(ts[i])
    ensures ts == [] <==> AllSpace(Lower(query))
  {
    Words(Lower(query))
  }

  /** The text a page is matched against. */
  function Haystack(p: Page): string {
    Lower(p.title + " " + p.path)
  }

  /** Number of terms (counted with repetition) that occur in `hay`. */
  function Score(terms: seq<string>, hay: string): (n: nat)
    ensures n <= |terms|
    ensures n > 0 <==> exists i :: 0 <= i < |terms| && Contains(hay, terms[i])
    ensures n == |terms| <==> forall i :: 0 <= i < |terms| ==> Contains(hay, terms[i])
  {
    if |terms| == 0 then 0
    else
      var rest := Score(terms[1..], hay);
      assert forall i :: 1 <= i < |terms| ==> terms[i] == terms[1..][i - 1];
      (if Contains(hay, terms[0]) then 1 else 0) + rest
  }

  /** The score adds up over the terms: it is the number of terms present,
      each contributing one. */
  lemma {:induction false} ScoreAppend(a: seq<string>, b: seq<string>, hay: string)
    ensures Score(a + b, hay) == Score(a, hay) + Score(b, hay)
    decreases |a|
  {
    if |a| == 0 {
      assert a + b == b;
    } else {
      assert (a + b)[1..] == a[1..] + b;
      assert (a + b)[0] == a[0];
      ScoreAppend(a[1..], b, hay);
    }
  }

  /** A term of the query is found in a page's text exactly when it occurs
      in the lowercased title or in the lowercased path: the space that
      joins them cannot be part of a term. */
  lemma TermInHaystack(p: Page, t: string)
    requires |t| > 0 && NoSpace(t)
    ensures Contains(Haystack(p), t) <==> Contains(Lower(p.title), t) || Contains(Lower(p.path), t)
  {
    LowerConcat(p.title + " ", p.path);
    LowerConcat(p.title, " ");
    assert Lower(" ") == " ";
    assert Haystack(p) == Lower(p.title) + " " + Lower(p.path);
    NoSpaceNeedleSplit(Lower(p.title), Lower(p.path), t);
  }

  /** A page's entry in the results, if it scores above zero. */
  function HitOf(p: Page, terms: seq<string>): (h: Option<Hit>)
    ensures h.Some? <==> exists i :: 0 <= i < |terms| && Contains(Haystack(p), terms[i])
    ensures h.Some? ==> h.value.title == p.title && h.value.path == p.path
    ensures h.Some? ==> 0 < h.value.score <= |terms|
    ensures h.Some? ==> h.value.score == Score(terms, Haystack(p))
  {
    var n := Score(terms, Haystack(p));
    if n > 0 then Some(Hit(p.title, p.path, n)) else None
  }

  /** The pages of all sections, section by section. */
  function AllPages(sections: seq<IndexSection>): (ps: seq<Page>)
    ensures forall p :: p in ps <==> exists i :: 0 <= i < |sections| && p in sections[i].pages
  {
    if |sections| == 0 then []
    else
      var rest := AllPages(sections[1..]);
      assert forall i :: 1 <= i < |sections| ==> sections[i] == sections[1..][i - 1];
      sections[0].pages + rest
  }

  /** The results before sorting, in page order. */
  function Collect(pages: seq<Page>, terms: seq<string>): (hs: seq<Hit>)
    ensures |hs| <= |pages|
    ensures forall i :: 0 <= i < |hs| ==> 0 < hs[i].score <= |terms|
  {
    var f := p => HitOf(p, terms);
    FilterMapAll(f, pages, (h: Hit) => 0 < h.score <= |terms|);
    FilterMap(f, pages)
  }

  /** A hit is collected exactly when some page produces it. */
  lemma CollectMembers(pages: seq<Page>, terms: seq<string>, h: Hit)
    ensures h in Collect(pages, terms) <==> exists j :: 0 <= j < |pages| && HitOf(pages[j], terms) == Some(h)
  {
    FilterMapMembers(p => HitOf(p, terms), pages, h);
  }

  /** With no terms nothing scores, so nothing is collected. */
  lemma CollectNoTerms(pages: seq<Page>)
    ensures Collect(pages, []) == []
  {
    FilterMapNone(p => HitOf(p, []), pages);
  }

  // ---------------------------------------------------------------------
  // results.sort(...)
  // ---------------------------------------------------------------------

  /** The comparator `b.score - a.score || a.title.localeCompare(b.title)`
      read as "a may precede b": a higher score first, equal scores by
      title. */
  predicate Before(titleLe: (string, string) -> bool, a: Hit, b: Hit) {
    a.score > b.score || (a.score == b.score && titleLe(a.title, b.title))
  }

  /** The comparator itself, given `localeCompare` as `cmp`: JavaScript's
      `x || y` yields `y` when `x` is zero. */
  function Compare(cmp: (string, string) -> int, a: Hit, b: Hit): int {
    var d := b.score - a.score;
    if d != 0 then d else cmp(a.title, b.title)
  }

  /** `Before` is "the comparator does not put `b` first": for a title
      order read off `localeCompare`, `a` may precede `b` exactly when the
      comparator returns zero or less. */
  lemma BeforeMatchesComparator(titleLe: (string, string) -> bool, cmp: (string, string) -> int, a: Hit, b: Hit)
    requires forall x, y :: titleLe(x, y) <==> cmp(x, y) <= 0
    ensures Before(titleLe, a, b) <==> Compare(cmp, a, b) <= 0
  {
    assert titleLe(a.title, b.title) <==> cmp(a.title, b.title) <= 0;
  }

  ghost predicate Total(titleLe: (string, string) -> bool) {
    forall a, b :: titleLe(a, b) || titleLe(b, a)
  }

  predicate Sorted(titleLe: (string, string) -> bool, hs: seq<Hit>) {
    forall i :: 0 <= i < |hs| - 1 ==> Before(titleLe, hs[i], hs[i + 1])
  }

  function Insert(titleLe: (string, string) -> bool, h: Hit, hs: seq<Hit>): (r: seq<Hit>)
    requires Total(titleLe)
    requires Sorted(titleLe, hs)
    ensures Sorted(titleLe, r)
    ensures multiset(r) == multiset(hs) + multiset{h}
    ensures |r| > 0 && (r[0] == h || (|hs| > 0 && r[0] == hs[0]))
  {
    if |hs| == 0 then [h]
    else if Before(titleLe, h, hs[0]) then [h] + hs
    else
      var rest := Insert(titleLe, h, hs[1..]);
      assert hs == [hs[0]] + hs[1..];
      [hs[0]] + rest
  }

  /** A stable insertion sort under `Before`. */
  function Sort(titleLe: (string, string) -> bool, hs: seq<Hit>): (r: seq<Hit>)
    requires Total(titleLe)
    ensures Sorted(titleLe, r)
    ensures multiset(r) == multiset(hs)
  {
    if |hs| == 0 then []
    else
      var rest := Sort(titleLe, hs[1..]);
      assert hs == [hs[0]] + hs[1..];
      Insert(titleLe, hs[0], rest)
  }

  /** Scores never go up along a sorted result, however far apart two
      entries are. */
  lemma {:induction false} SortedScoresDescend(titleLe: (string, string) -> bool, hs: seq<Hit>, i: int, j: int)
    requires Sorted(titleLe, hs)
    requires 0 <= i <= j < |hs|
    ensures hs[i].score >= hs[j].score
    decreases j - i
  {
    if i < j {
      SortedScoresDescend(titleLe, hs, i + 1, j);
    }
  }

  /** The search tool's `execute` for a query that passed the schema's
      two-character minimum. */
  function SearchIndex(sections: seq<IndexSection>, query: string, titleLe: (string, string) -> bool): (r: seq<Hit>)
    requires |query| >= 2
    requires Total(titleLe)
    ensures Sorted(titleLe, r)
    ensures multiset(r) == multiset(Collect(AllPages(sections), Terms(query)))
    ensures forall i :: 0 <= i < |r| ==> 0 < r[i].score <= |Terms(query)|
  {
    var hs := Collect(AllPages(sections), Terms(query));
    var r := Sort(titleLe, hs);
    assert forall i :: 0 <= i < |r| ==> r[i] in multiset(hs);
    r
  }

  /** A hit appears in the results exactly when some page of some section
      produces it. */
  lemma SearchMembers(sections: seq<IndexSection>, query: string, titleLe: (string, string) -> bool, h: Hit)
    requires |query| >= 2
    requires Total(titleLe)
    ensures h in SearchIndex(sections, query, titleLe) <==>
            exists j :: 0 <= j < |AllPages(sections)| && HitOf(AllPages(sections)[j], Terms(query)) == Some(h)
  {
    var pages := AllPages(sections);
    var terms := Terms(query);
    CollectMembers(pages, terms, h);
    SameMembers(SearchIndex(sections, query, titleLe), Collect(pages, terms), h);
  }

  lemma SameMembers(a: seq<Hit>, b: seq<Hit>, h: Hit)
    requires multiset(a) == multiset(b)
    ensures h in a <==> h in b
  {
    assert h in a <==> h in multiset(a);
    assert h in b <==> h in multiset(b);
  }

  /** A query of white space only has no terms and finds nothing. */
  lemma BlankQueryFindsNothing(sections: seq<IndexSection>, query: string, titleLe: (string, string) -> bool)
    requires |query| >= 2 && AllSpace(query)
    requires Total(titleLe)
    ensures SearchIndex(sections, query, titleLe) == []
  {
    assert forall i :: 0 <= i < |query| ==> Lower(query)[i] == query[i];
    assert Terms(query) == [];
    CollectNoTerms(AllPages(sections));
  }
}

=== FILE: seqs.dfy ===
/** Sequence helpers shared by the parser and the search: keeping the
    results of a partial function over a sequence, in order. */
module Seqs {
  import opened Wrappers

  /** `f` applied to every element, the `None` results dropped and the
      `Some` results kept in order. */
  function FilterMap<A, B>(f: A -> Option<B>, xs: seq<A>): (r: seq<B>)
    ensures |r| <= |xs|
  {
    if |xs| == 0 then []
    else
      var rest := FilterMap(f, xs[1..]);
      match f(xs[0])
      case None => rest
      case Some(y) => [y] + rest
  }

  /** Filtering distributes over concatenation, so input order is kept. */
  lemma {:induction false} FilterMapAppend<A, B>(f: A -> Option<B>, a: seq<A>, b: seq<A>)
    ensures FilterMap(f, a + b) == FilterMap(f, a) + FilterMap(f, b)
    decreases |a|
  {
    if |a| == 0 {
      assert a + b == b;
    } else {
      assert (a + b)[1..] == a[1..] + b;
      assert (a + b)[0] == a[0];
      FilterMapAppend(f, a[1..], b);
    }
  }

  /** An output is kept exactly when some input produces it. */
  lemma {:induction false} FilterMapMembers<A, B>(f: A -> Option<B>, xs: seq<A>, y: B)
    ensures y in FilterMap(f, xs) <==> exists j :: 0 <= j < |xs| && f(xs[j]) == Some(y)
    decreases |xs|
  {
    if |xs| > 0 {
      FilterMapMembers(f, xs[1..], y);
      if exists j :: 0 <= j < |xs| && f(xs[j]) == Some(y) {
        var j :| 0 <= j < |xs| && f(xs[j]) == Some(y);
        if j > 0 {
          assert xs[1..][j - 1] == xs[j];
        }
      }
      if exists j :: 0 <= j < |xs| - 1 && f(xs[1..][j]) == Some(y) {
        var j :| 0 <= j < |xs| - 1 && f(xs[1..][j]) == Some(y);
        assert xs[j + 1] == xs[1..][j];
      }
    }
  }

  /** A property every produced value has holds of every kept value. */
  lemma {:induction false} FilterMapAll<A, B>(f: A -> Option<B>, xs: seq<A>, p: B -> bool)
    requires forall x :: f(x).Some? ==> p(f(x).value)
    ensures forall i :: 0 <= i < |FilterMap(f, xs)| ==> p(FilterMap(f, xs)[i])
    decreases |xs|
  {
    if |xs| > 0 {
      FilterMapAll(f, xs[1..], p);
    }
  }

  /** Nothing is kept when `f` produces nothing. */
  lemma {:induction false} FilterMapNone<A, B>(f: A -> Option<B>, xs: seq<A>)
    requires forall x :: f(x).None?
    ensures FilterMap(f, xs) == []
    decreases |xs|
  {
    if |xs| > 0 {
      FilterMapNone(f, xs[1..]);
    }
  }
}

=== FILE: text.dfy ===
/** String primitives with JavaScript semantics: the `\s` character class,
    `String.prototype.trim`, `includes`, `indexOf`, first-occurrence
    `replace` with a string pattern, and whitespace tokenising. Strings are
    sequences of characters; lowercasing covers the ASCII letters only. */
module Text {
  import opened Wrappers

  /** The characters JavaScript treats as line terminators (`.` in a regular
      expression does not match them). */
  predicate IsLineTerminator(c: char) {
    c == '\n' || c == '\r' || c as int == 0x2028 || c as int == 0x2029
  }

  /** The JavaScript `\s` class, which is also what `trim` removes:
      white space plus line terminators. */
  predicate IsSpace(c: char) {
    || IsLineTerminator(c)
    || c == '\t' || c == ' '
    || c as int == 0x0B || c as int == 0x0C || c as int == 0xA0
    || c as int == 0x1680 || (0x2000 <= c as int <= 0x200A)
    || c as int == 0x202F || c as int == 0x205F || c as int == 0x3000
    || c as int == 0xFEFF
  }

  predicate NoSpace(s: string) {
    forall i :: 0 <= i < |s| ==> !IsSpace(s[i])
  }

  predicate AllSpace(s: string) {
    forall i :: 0 <= i < |s| ==> IsSpace(s[i])
  }

  predicate StartsWith(s: string, p: string) {
    |p| <= |s| && s[..|p|] == p
  }

  /** `t` occurs in `s` starting at index `i`. */
  predicate OccursAt(s: string, t: string, i: int) {
    0 <= i && i + |t| <= |s| && s[i..i + |t|] == t
  }

  /** `s.includes(t)`. */
  predicate Contains(s: string, t: string) {
    exists i :: 0 <= i <= |s| - |t| && OccursAt(s, t, i)
  }

  /** Index of the first occurrence of `t` in `s` at or after `i`. */
  function IndexFrom(s: string, t: string, i: nat): (r: Option<nat>)
    requires i <= |s|
    requires forall j :: 0 <= j < i ==> !OccursAt(s, t, j)
    ensures r.Some? ==> OccursAt(s, t, r.value)
    ensures r.Some? ==> forall j :: 0 <= j < r.value ==> !OccursAt(s, t, j)
    ensures r.None? <==> !Contains(s, t)
    decreases |s| - i
  {
    if i + |t| > |s| then None
    else if s[i..i + |t|] == t then assert OccursAt(s, t, i); Some(i)
    else IndexFrom(s, t, i + 1)
  }

  /** `s.indexOf(t)`, with `None` for -1. */
  function IndexOf(s: string, t: string): (r: Option<nat>)
    ensures r.Some? ==> OccursAt(s, t, r.value)
    ensures r.Some? ==> forall j :: 0 <= j < r.value ==> !OccursAt(s, t, j)
    ensures r.None? <==> !Contains(s, t)
  {
    IndexFrom(s, t, 0)
  }

  /** `s.replace(pat, rep)` with a string pattern: only the first
      occurrence is replaced. `rep` is spliced in literally; the `$&`,
      `$$` and similar replacement patterns JavaScript would expand are not
      modelled, which changes nothing for the empty replacement used by
      `PathOf`. */
  function ReplaceFirst(s: string, pat: string, rep: string): (r: string)
    ensures !Contains(s, pat) ==> r == s
    ensures Contains(s, pat) ==>
              exists i :: && OccursAt(s, pat, i)
                          && (forall j :: 0 <= j < i ==> !OccursAt(s, pat, j))
                          && r == s[..i] + rep + s[i + |pat|..]
    ensures StartsWith(s, pat) ==> r == rep + s[|pat|..]
  {
    match IndexOf(s, pat)
    case None => s
    case Some(i) => s[..i] + rep + s[i + |pat|..]
  }

  /** `s.replace(/^\//, "")`: at most one leading slash removed. */
  function StripLeadingSlash(s: string): (r: string)
    ensures StartsWith(s, "/") ==> "/" + r == s
    ensures !StartsWith(s, "/") ==> r == s
  {
    if |s| > 0 && s[0] == '/' then s[1..] else s
  }

  /** `s.replace(/\/$/, "")`: at most one trailing slash removed. */
  function StripTrailingSlash(s: string): (r: string)
    ensures |s| > 0 && s[|s| - 1] == '/' ==> r + "/" == s
    ensures !(|s| > 0 && s[|s| - 1] == '/') ==> r == s
  {
    if |s| > 0 && s[|s| - 1] == '/' then s[..|s| - 1] else s
  }

  function LowerChar(c: char): char {
    if 'A' <= c <= 'Z' then (c as int + 32) as char else c
  }

  /** `toLowerCase`, restricted to the ASCII letters. */
  function Lower(s: string): (r: string)
    ensures |r| == |s|
    ensures forall i :: 0 <= i < |s| ==> r[i] == LowerChar(s[i])
  {
    seq(|s|, i requires 0 <= i < |s| => LowerChar(s[i]))
  }

  lemma LowerConcat(a: string, b: string)
    ensures Lower(a + b) == Lower(a) + Lower(b)
  {
  }

  function TrimStart(s: string): (r: string)
    ensures |r| <= |s| && r == s[|s| - |r|..]
    ensures AllSpace(s[..|s| - |r|])
    ensures |r| > 0 ==> !IsSpace(r[0])
    decreases |s|
  {
    if |s| > 0 && IsSpace(s[0]) then TrimStart(s[1..]) else s
  }

  function TrimEnd(s: string): (r: string)
    ensures |r| <= |s| && r == s[..|r|]
    ensures AllSpace(s[|r|..])
    ensures |r| > 0 ==> !IsSpace(r[|r| - 1])
    decreases |s|
  {
    if |s| > 0 && IsSpace(s[|s| - 1]) then TrimEnd(s[..|s| - 1]) else s
  }

  /** Number of leading `\s` characters `trim` removes. */
  function TrimOffset(s: string): (k: nat)
    ensures k <= |s|
  {
    |s| - |TrimStart(s)|
  }

  /** `s.trim()`: the middle of `s` once every leading and trailing `\s`
      character is gone. */
  function Trim(s: string): (r: string)
    ensures TrimOffset(s) + |r| <= |s|
    ensures r == s[TrimOffset(s)..TrimOffset(s) + |r|]
    ensures AllSpace(s[..TrimOffset(s)]) && AllSpace(s[TrimOffset(s) + |r|..])
    ensures |r| > 0 ==> !IsSpace(r[0]) && !IsSpace(r[|r| - 1])
  {
    var t := TrimStart(s);
    var r := TrimEnd(t);
    TrimParts(s, t, r, TrimOffset(s));
    r
  }

  /** Trimming the front and then the back leaves a middle framed by white
      space on both sides. */
  lemma TrimParts(s: string, t: string, r: string, k: nat)
    requires k + |t| == |s| && t == s[k..] && AllSpace(s[..k])
    requires |t| > 0 ==> !IsSpace(t[0])
    requires |r| <= |t| && r == t[..|r|] && AllSpace(t[|r|..])
    requires |r| > 0 ==> !IsSpace(r[|r| - 1])
    ensures k + |r| <= |s|
    ensures r == s[k..k + |r|]
    ensures AllSpace(s[..k]) && AllSpace(s[k + |r|..])
    ensures |r| > 0 ==> !IsSpace(r[0]) && !IsSpace(r[|r| - 1])
  {
    assert t[|r|..] == s[k + |r|..];
    assert |r| > 0 ==> r[0] == t[0];
  }

  /** A string without surrounding white space is its own trim. */
  lemma TrimOfTrimmed(s: string)
    requires |s| > 0 ==> !IsSpace(s[0]) && !IsSpace(s[|s| - 1])
    ensures Trim(s) == s
  {
  }

  lemma TrimIdempotent(s: string)
    ensures Trim(Trim(s)) == Trim(s)
  {
    TrimOfTrimmed(Trim(s));
  }

  /** Length of the run of non-space characters that starts `s`. */
  function WordLength(s: string): (n: nat)
    ensures n <= |s|
    ensures NoSpace(s[..n])
    ensures n < |s| ==> IsSpace(s[n])
  {
    if |s| == 0 || IsSpace(s[0]) then 0
    else
      var m := WordLength(s[1..]);
      assert s[..1 + m] == [s[0]] + s[1..][..m];
      1 + m
  }

  /** `s.split(/\s+/).filter(Boolean)`: the maximal runs of non-space
      characters, in order. Splitting on white-space runs leaves an empty
      first or last piece exactly when `s` starts or ends with white space,
      and the filter drops those. */
  function Words(s: string): (ws: seq<string>)
    ensures forall i :: 0 <= i < |ws| ==> |ws[i]| > 0 && NoSpace(ws[i])
    ensures ws == [] <==> AllSpace(s)
    decreases |s|
  {
    if |s| == 0 then []
    else if IsSpace(s[0]) then
      var rest := Words(s[1..]);
      assert AllSpace(s[1..]) ==> AllSpace(s);
      rest
    else
      var n := WordLength(s);
      [s[..n]] + Words(s[n..])
  }

  /** `gaps[0] + ws[0] + gaps[1] + ... + ws[n - 1] + gaps[n]`. */
  function Interleave(gaps: seq<string>, ws: seq<string>): string
    requires |gaps| == |ws| + 1
  {
    if |ws| == 0 then gaps[0] else gaps[0] + ws[0] + Interleave(gaps[1..], ws[1..])
  }

  /** The white-space runs around and between the words of `s`: the
      separators `split(/\s+/)` cuts at, plus the leading and trailing white
      space. Every gap is white space, and every gap between two words is
      non-empty; the two ends may be empty. */
  function Gaps(s: string): (gs: seq<string>)
    ensures |gs| == |Words(s)| + 1
    ensures forall i :: 0 <= i < |gs| ==> AllSpace(gs[i])
    ensures forall i :: 0 < i < |gs| - 1 ==> |gs[i]| > 0
    ensures |s| > 0 && IsSpace(s[0]) ==> |gs[0]| > 0
    decreases |s|
  {
    if |s| == 0 then [""]
    else if IsSpace(s[0]) then
      var g := Gaps(s[1..]);
      var gs := [[s[0]] + g[0]] + g[1..];
      assert forall i :: 0 < i < |gs| ==> gs[i] == g[i];
      assert forall i :: 0 < i < |gs[0]| ==> gs[0][i] == g[0][i - 1];
      gs
    else
      var n := WordLength(s);
      var g := Gaps(s[n..]);
      assert |Words(s[n..])| > 0 ==> |s[n..]| > 0 && IsSpace(s[n..][0]);
      var gs := [""] + g;
      assert forall i :: 0 < i < |gs| ==> gs[i] == g[i - 1];
      gs
  }

  /** The words are the maximal runs of non-space characters: `s` is its
      words interleaved with its gaps, which `Gaps` describes. */
  lemma {:induction false} WordsSplit(s: string)
    ensures Interleave(Gaps(s), Words(s)) == s
    decreases |s|
  {
    if |s| > 0 {
      if IsSpace(s[0]) {
        var g := Gaps(s[1..]);
        WordsSplit(s[1..]);
        assert Gaps(s) == [[s[0]] + g[0]] + g[1..];
        assert Words(s) == Words(s[1..]);
        InterleaveGrowFirst([s[0]], g, Words(s[1..]));
        assert s == [s[0]] + s[1..];
      } else {
        var n := WordLength(s);
        WordsSplit(s[n..]);
        assert Words(s) == [s[..n]] + Words(s[n..]);
        assert Gaps(s) == [""] + Gaps(s[n..]);
        InterleaveWordFirst(s[..n], Gaps(s[n..]), Words(s[n..]));
        assert s == s[..n] + s[n..];
      }
    }
  }

  /** A leading word with no white space before it comes first. */
  lemma InterleaveWordFirst(w: string, gaps: seq<string>, ws: seq<string>)
    requires |gaps| == |ws| + 1
    ensures Interleave([""] + gaps, [w] + ws) == w + Interleave(gaps, ws)
  {
    var g := [""] + gaps;
    var v := [w] + ws;
    assert g[0] == "" && v[0] == w && g[1..] == gaps && v[1..] == ws;
    assert Interleave(g, v) == g[0] + v[0] + Interleave(g[1..], v[1..]);
    assert g[0] + v[0] == w;
  }

  /** Growing the first gap grows the interleaving at the front. */
  lemma InterleaveGrowFirst(p: string, gaps: seq<string>, ws: seq<string>)
    requires |gaps| == |ws| + 1
    ensures Interleave([p + gaps[0]] + gaps[1..], ws) == p + Interleave(gaps, ws)
  {
    var g := [p + gaps[0]] + gaps[1..];
    if |ws| > 0 {
      assert g[1..] == gaps[1..];
    }
  }

  function Concat(ws: seq<string>): string {
    if |ws| == 0 then "" else ws[0] + Concat(ws[1..])
  }

  /** `s` with every white-space character deleted. */
  function DropSpace(s: string): (r: string)
    ensures NoSpace(r)
  {
    if |s| == 0 then ""
    else if IsSpace(s[0]) then DropSpace(s[1..])
    else [s[0]] + DropSpace(s[1..])
  }

  lemma {:induction false} DropSpaceConcat(a: string, b: string)
    ensures DropSpace(a + b) == DropSpace(a) + DropSpace(b)
    decreases |a|
  {
    if |a| > 0 {
      assert (a + b)[1..] == a[1..] + b;
      DropSpaceConcat(a[1..], b);
    } else {
      assert a + b == b;
    }
  }

  lemma {:induction false} DropSpaceOfWord(w: string)
    requires NoSpace(w)
    ensures DropSpace(w) == w
    decreases |w|
  {
    if |w| > 0 {
      DropSpaceOfWord(w[1..]);
      assert w == [w[0]] + w[1..];
    }
  }

  /** Tokenising loses exactly the white space: the tokens, glued back
      together, are the input with its white space deleted. */
  lemma {:induction false} WordsConcat(s: string)
    ensures Concat(Words(s)) == DropSpace(s)
    decreases |s|
  {
    if |s| > 0 {
      if IsSpace(s[0]) {
        WordsConcat(s[1..]);
      } else {
        var n := WordLength(s);
        WordsConcat(s[n..]);
        assert s == s[..n] + s[n..];
        DropSpaceConcat(s[..n], s[n..]);
        DropSpaceOfWord(s[..n]);
        var ws := Words(s);
        assert ws == [s[..n]] + Words(s[n..]);
        assert ws[1..] == Words(s[n..]);
      }
    }
  }

  /** A needle without white space occurs in `a + " " + b` exactly when it
      occurs in `a` or in `b`: no occurrence can straddle the separator. */
  lemma NoSpaceNeedleSplit(a: string, b: string, t: string)
    requires |t| > 0 && NoSpace(t)
    ensures Contains(a + " " + b, t) <==> Contains(a, t) || Contains(b, t)
  {
    var s := a + " " + b;
    if Contains(s, t) {
      var i :| 0 <= i <= |s| - |t| && OccursAt(s, t, i);
      if i + |t| <= |a| {
        OccursLeft(a, b, t, i);
      } else if i > |a| {
        OccursRight(a, b, t, i - |a| - 1);
      } else {
        NoStraddle(a, b, t, i);
      }
    }
    if Contains(a, t) {
      var i :| 0 <= i <= |a| - |t| && OccursAt(a, t, i);
      OccursLeft(a, b, t, i);
    }
    if Contains(b, t) {
      var j :| 0 <= j <= |b| - |t| && OccursAt(b, t, j);
      OccursRight(a, b, t, j);
    }
  }

  lemma OccursLeft(a: string, b: string, t: string, i: nat)
    requires i + |t| <= |a|
    ensures OccursAt(a + " " + b, t, i) <==> OccursAt(a, t, i)
  {
    assert (a + " " + b)[i..i + |t|] == a[i..i + |t|];
  }

  lemma OccursRight(a: string, b: string, t: string, j: nat)
    requires j + |t| <= |b|
    ensures OccursAt(a + " " + b, t, j + |a| + 1) <==> OccursAt(b, t, j)
  {
    var i := j + |a| + 1;
    assert (a + " " + b)[i..i + |t|] == b[j..j + |t|];
  }

  /** The separator would sit inside an occurrence that straddles it. */
  lemma NoStraddle(a: string, b: string, t: string, i: nat)
    requires NoSpace(t) && i <= |a| < i + |t| <= |a| + 1 + |b|
    ensures !OccursAt(a + " " + b, t, i)
  {
    var s := a + " " + b;
    assert s[i..i + |t|][|a| - i] == ' ';
    assert !IsSpace(t[|a| - i]);
  }
}

=== FILE: tools.dfy ===
/** The read-through pattern every documentation tool follows: look the key
    up in a `CacheManager`; on a hit return the cached value; on a miss run
    the fetch, store its value under the key, and return it. A fetch that
    throws stores nothing and the error reaches the caller.

    The clock is read twice: `getNow` when the lookup runs and `setNow` when
    the fetched value is stored, after the fetch has completed. The fetch
    itself is replaced by its outcome. */
module Tools {
  import opened Wrappers
  import opened CacheManager

  /** The cache afterwards, what the tool returns (or the error it throws),
      and whether it went to the network. */
  datatype Through<V> = Through(cache: Cache<V>, result: Result<V, string>, fetched: bool)

  function CacheThrough<V>(c: Cache<V>, key: string, getNow: int, setNow: int, miss: Result<V, string>, sizeOf: V -> nat): (r: Through<V>)
    requires Valid(c)
    ensures Valid(r.cache)
    ensures !r.fetched <==> key in c.entries && getNow <= c.entries[key].expiresAt
    ensures !r.fetched ==> r.result == Success(c.entries[key].value) && r.cache.entries.Keys == c.entries.Keys
    ensures r.fetched ==> r.result == miss
    ensures r.fetched && miss.Success? ==>
              && key in r.cache.entries
              && r.cache.entries[key].value == miss.value
              && r.cache.entries[key].expiresAt == setNow + c.config.ttl
    ensures r.fetched && miss.Failure? ==> r.cache.entries == c.entries - {key}
    ensures !r.fetched ==>
              && r.cache.entries == c.entries[key := c.entries[key].(accessCount := c.entries[key].accessCount + 1,
                                                                     lastAccessed := getNow)]
              && r.cache.stats.hits == c.stats.hits + 1
              && r.cache.stats.misses == c.stats.misses
    ensures r.fetched ==> r.cache.stats.misses == c.stats.misses + 1 && r.cache.stats.hits == c.stats.hits
    ensures forall k :: k in r.cache.entries && k != key ==> k in c.entries && r.cache.entries[k] == c.entries[k]
    ensures r.fetched && miss.Success? && c.stats.size + sizeOf(miss.value) <= c.config.maxSize ==>
              forall k :: k in c.entries && k != key ==> k in r.cache.entries
    ensures r.cache.config == c.config
  {
    var lookup := Get(c, key, getNow);
    match lookup.value
    case Some(v) => Through(lookup.cache, Success(v), false)
    case None =>
      match miss
      case Success(v) => Through(Set(lookup.cache, key, v, setNow, sizeOf), Success(v), true)
      case Failure(e) => Through(lookup.cache, Failure(e), true)
  }

  /** A successful fetch is served from the cache by every later call up to
      `ttl` after it was stored, without another fetch, provided nothing
      else touched the cache in between. */
  lemma SecondCallHits<V>(c: Cache<V>, key: string, t0: int, t1: int, v: V, t2: int, miss2: Result<V, string>, sizeOf: V -> nat)
    requires Valid(c)
    requires CacheThrough(c, key, t0, t1, Success(v), sizeOf).fetched
    requires t2 <= t1 + c.config.ttl
    ensures var first := CacheThrough(c, key, t0, t1, Success(v), sizeOf);
            var second := CacheThrough(first.cache, key, t2, t2, miss2, sizeOf);
            !second.fetched && second.result == Success(v)
  {
  }

  /** After a failed fetch the next call fetches again. */
  lemma FailureIsNotCached<V>(c: Cache<V>, key: string, t0: int, t1: int, err: string, t2: int, t3: int, miss2: Result<V, string>, sizeOf: V -> nat)
    requires Valid(c)
    requires CacheThrough(c, key, t0, t1, Failure(err), sizeOf).fetched
    ensures var first := CacheThrough(c, key, t0, t1, Failure(err), sizeOf);
            CacheThrough(first.cache, key, t2, t3, miss2, sizeOf).fetched
  {
  }
}

=== FILE: wrappers.dfy ===
/** Failure-carrying datatypes shared by the whole model: `Option` for a
    value that may be absent (a cache miss, a non-matching line) and `Result`
    for an operation that may fail (a fetch that throws). */
module Wrappers {

  datatype Option<+T> = None | Some(value: T) {

    /** The wrapped value, or `default` when there is none. */
    function GetOr(default: T): (r: T)
      ensures Some? ==> r == value
      ensures None? ==> r == default
    {
      match this
      case Some(v) => v
      case None => default
    }
  }

  datatype Result<+R, +E> = Success(value: R) | Failure(error: E) {

    /** Applies `f` to a success value and passes a failure through. */
    function MapSuccess<U>(f: R -> U): (r: Result<U, E>)
      ensures Success? <==> r.Success?
      ensures Success? ==> r.value == f(value)
      ensures Failure? ==> r.error == error
    {
      match this
      case Success(v) => Success(f(v))
      case Failure(e) => Failure(e)
    }
  }
}
